=== FILE: README.md ===
# Neighbourhood social client — verified model of its pure rules

The client is a React application for a location-based neighbourhood network. Users post
to a feed that is also shown on a map, chat in interest channels with the people around
them, read summaries of nearby posts for each of their interests, and manage friends.
The pages call a hosted backend for everything they store. Between those calls they run
small, pure rules, and this project models those rules in Dafny and proves what they
guarantee:

- **Map clustering** (`clustering.dfy`, `indexing.dfy`). The map groups posts into pins
  in one greedy pass. The pins' members are a permutation of the input, and every
  non-seed member lies within the merge radius of its seed. No post of a later pin was
  near an earlier seed. Each pin sits at the mean of its members' coordinates. The result
  depends on the input order.
- **Proximity pipelines** (`geo.dfy`, `feed.dfy`, `chat.dfy`, `summary.dfy`). Records are
  annotated with their distance from the viewer and kept within 5 miles. The feed then
  sorts them newest first and may filter by category. The chat reverses them to oldest
  first. The summary page buckets them by the viewer's interests.
- **Chat slowmode** (`chat.dfy`, `messageinput.dfy`). Slowmode is on when more than 10
  users are nearby. It rejects a send less than 4 seconds after the previous one and
  starts a 4-second cooldown that a one-second timer counts down. The message box adds
  its own guard.
- **Friendships** (`friends.dfy`). Sending, accepting, rejecting and removing are updates
  of two users' email lists. The relationship badge follows a fixed precedence. This
  file also holds the search and the friends and requests lists.
- **Validators and toggles** (`onboarding.dfy`, `profile.dfy`, `likes.dfy`,
  `createpost.dfy`, `text.dfy`, `seqs.dfy`, `interests.dfy`):
  - username rules and the case-insensitive availability check;
  - the interest and like toggles;
  - the profile form defaults;
  - the post composer's guard, record and reset.

Distance is a parameter `dist: (Coord, Coord) -> real`, and timestamps are integer
milliseconds. JavaScript truthiness is modelled as written. A latitude of `0`, a
`lastMessageTime` of `0` and an empty channel or filter string all count as absent.

## Model

| member | source | states |
|---|---|---|
| Clustering.ClusterPosts | App/Components/map/PostMap.jsx:46-87 | There are no more pins than posts, and no pins for no posts. Every pin has members, carries its first member's distance and sits at the mean of its members' coordinates. The partition and the greedy seeding are stated by Clustering.ClusterPostsPartition and Clustering.ClusterPostsGreedy. |
| Clustering.ClusterIndices | App/Components/map/PostMap.jsx:50-84 | The single pass yields at most one index cluster per post, each non-empty and made of valid post indices. Clustering.ClusterIndicesPartition characterises it completely. |
| Clustering.ClusterIndicesPartition | App/Components/map/PostMap.jsx:46-87 | The clustering on indices is a partition of the input. Every position appears exactly once, each cluster is non-empty and ascending with its seed first, every member is within the radius of its seed, and no index of a later cluster was within the radius of an earlier seed. |
| Clustering.ClusterPostsPartition | App/Components/map/PostMap.jsx:46-86 | No posts give no pins. There are never more pins than posts, and the pins' members together are a permutation of the input posts. |
| Clustering.ClusterPostsGreedy | App/Components/map/PostMap.jsx:53-81 | Every pin has members and carries its seed's distance. Its centre is the mean latitude and longitude of its members. Members are near the pin's first post, and posts of later pins are not near an earlier pin's first post. |
| Clustering.MapPins | App/Components/map/PostMap.jsx:137 | The map clusters with the default radius of 0.1 miles. Its pins partition the posts, sit at their members' means and are seeded greedily, with no more pins than posts. |
| Clustering.AllMembersLift | App/Components/map/PostMap.jsx:53-83 | Building pin records from index clusters commutes with concatenation: the pins' members are the posts picked by the concatenated indices. |
| Clustering.LiftMember | App/Components/map/PostMap.jsx:53-71 | A pin has one member per index of its cluster, and its t-th member is the post at the cluster's t-th index. This carries the index-level seeding facts over to the pins. |
| Clustering.MeanWithin | App/Components/map/PostMap.jsx:78-81 | A pin's centre lies inside any latitude or longitude interval holding all of its members. |
| Clustering.ClusterTwoNear | App/Components/map/PostMap.jsx:60-81 | Two posts, the second within the radius of the first, make one pin holding both, centred at their midpoint. |
| Clustering.ClusterTwoFar | App/Components/map/PostMap.jsx:60-81 | Two posts, the second outside the radius of the first, make two single-post pins, each centred on its own post. |
| Clustering.ClusterChaining | App/Components/map/PostMap.jsx:50-74 | The result depends on order. With `b` near both `a` and `c` but `a` not near `c`, the order a, b, c gives pins {a, b} and {c}, while b, a, c gives one pin {b, a, c}. |
| Indexing.PickPermutation | App/Components/map/PostMap.jsx:48-76 | Picking posts by two index lists with the same multiset gives the same multiset of posts. This is the step from "each index used once" to "each post used once". |
| Indexing.DistinctCover | App/Components/map/PostMap.jsx:48-76 | A duplicate-free list of positions below `n` that mentions every position below `n` has the multiset of `0 .. n-1`. |
| Geo.AnnotateMembership | Pages/Feed.jsx:76-85 | An annotated record is exactly a stored record tagged with its own distance from the viewer. |
| Feed.LoadPosts | Pages/Feed.jsx:70-96 | The feed loads only with a location. `posts` is the full store answer. Each listed post is within 5 miles and matches the category filter, and the list is newest first. The listed multiset is exactly the annotated posts within range that match the filter. |
| Feed.LoadPostsMembership | Pages/Feed.jsx:76-91 | A post is listed if and only if it is stored, carries its own distance, is within 5 miles and is of the chosen category. |
| Feed.NoFilterKeepsAll | Pages/Feed.jsx:89-91 | Without a category filter, no post within range is dropped. |
| Feed.StoreOrderKept | Pages/Feed.jsx:74-87 | When the store already answers newest first, the sort changes nothing: the list is the store order minus the far posts. |
| Chat.LoadMessages | Pages/Chat.jsx:92-110 | Messages load only with a location and a selected channel. Every shown message is within 5 miles, and there are no more of them than stored. |
| Chat.LoadMessagesMembership | Pages/Chat.jsx:95-108 | A message is shown if and only if it is stored, carries its own distance and lies within 5 miles. |
| Chat.LoadMessagesOldestFirst | Pages/Chat.jsx:95-108 | The store answers newest first, so the reversed list is oldest first. |
| Chat.NearbyUsers | Pages/Chat.jsx:120-143 | The nearby list exists only with a location. Every entry is more than 0 and at most 5 miles away, and there are no more entries than users. |
| Chat.NearbyUsersSound | Pages/Chat.jsx:124-140 | Every entry is the name, avatar and distance of a stored user with non-zero coordinates, more than 0 and at most 5 miles away. |
| Chat.NearbyUsersComplete | Pages/Chat.jsx:124-140 | Every such user has an entry. |
| Chat.AvatarOncePerRun | Pages/Chat.jsx:380-383 | In a run of messages from one sender, each at most a minute after the previous one, only the first shows the avatar. |
| Chat.ShowAvatar | Pages/Chat.jsx:380-383 | The first message shows the avatar. So does a message after another sender's, and a message more than a minute after the previous one. A message within a minute of the same sender's previous one does not. Together these decide every case. |
| Chat.AvatarAfterPause | Pages/Chat.jsx:380-383 | After a pause of more than a minute, the same sender's next message shows the avatar again. The run that follows, within a minute between messages, shows it only there. |
| Chat.TooSoonMillis | Pages/Chat.jsx:185-187 | The elapsed-seconds test `(now - last) / 1000 < 4` holds exactly when a truthy last send is less than 4000 ms ago. |
| Chat.Send | Pages/Chat.jsx:178-208 | Without a location or a user, nothing happens. With slowmode on (more than 10 nearby users) and a send too soon, nothing happens and the state is unchanged. Otherwise the last-send time becomes `now`, the cooldown becomes 4 only under slowmode, and the message carries the content, the location, the sender fields and the channel. |
| Chat.SendProceeds | Pages/Chat.jsx:183-193 | Without slowmode, or before any send, a send with a location and a user always goes through. |
| Chat.Tick | Pages/Chat.jsx:169-176 | One second of the timer lowers a positive cooldown by one and leaves zero at zero. Chat.TicksCount gives the effect of k seconds. |
| Chat.InputBlocked | Pages/Chat.jsx:403 | The message box is blocked without a location or a user. With both, it is never blocked when slowmode is off, and with no cooldown it is blocked only for a missing location or user. Chat.CooldownBlocksInput ties it to a send. |
| Chat.TicksCount | Pages/Chat.jsx:169-176 | After `k` seconds the cooldown is `c - k`, or 0 once `k` reaches `c`. |
| Chat.CooldownBlocksInput | Pages/Chat.jsx:403 | After an accepted send under slowmode, the message box stays disabled for the next three timer seconds and is enabled after four. The message box, given the page's `disabled` and the same cooldown, is disabled for those three seconds and enabled after four when no send of its own is in flight. |
| Chat.SlowmodeScenario | Pages/Chat.jsx:178-198 | With 15 users nearby: a first send goes through, one 1000 ms later is dropped, and one 4000 ms after the first goes through. |
| MessageInput.Submit | App/Components/chat/MessageInput.jsx:10-15 | A submit is ignored exactly when the trimmed text is empty, a send is in flight or the cooldown is positive, and then the state is unchanged. Otherwise the trimmed, non-empty text is sent and the box is marked as sending. |
| MessageInput.Completed | App/Components/chat/MessageInput.jsx:16-17 | Once `onSend` returns, the box is empty and no longer sending. MessageInput.SendOnce shows that a second submit is then ignored. |
| MessageInput.KeyDown | App/Components/chat/MessageInput.jsx:20-25 | Enter without Shift behaves exactly as a submit, and every other key leaves the state alone and sends nothing. |
| MessageInput.InputDisabled | App/Components/chat/MessageInput.jsx:27 | The text area is disabled when the parent disables it or a send is in flight. Otherwise it is disabled exactly while the cooldown is positive. |
| MessageInput.ButtonDisabled | App/Components/chat/MessageInput.jsx:51 | The send button is disabled whenever the text area is, and when it is enabled the trimmed text is non-empty. MessageInput.ButtonMatchesSubmit relates it to a submit. |
| MessageInput.ButtonMatchesSubmit | App/Components/chat/MessageInput.jsx:27 | If the parent does not disable the box, the send button is disabled exactly when a submit would be ignored. A disabled parent disables both the box and the button. |
| MessageInput.EnterShortcut | App/Components/chat/MessageInput.jsx:20-25 | Shift+Enter never sends; plain Enter sends the trimmed text when the submit is not ignored. |
| MessageInput.SendOnce | App/Components/chat/MessageInput.jsx:12-17 | A completed send leaves the box empty and idle, so an immediate second submit sends nothing. |
| MessageInput.InFlightIgnored | App/Components/chat/MessageInput.jsx:12-14 | While a send is in flight, every submit is ignored, whatever the text. |
| Friends.SendRequest | Pages/Friends.jsx:70-80 | The target's email is appended to the viewer's sent list and the viewer's email to the target's received list, with no duplicate check. No other field changes. |
| Friends.Accept | Pages/Friends.jsx:86-105 | Accepting throws when the viewer has no received list. Otherwise each party is appended to the other's friends, the requester leaves the viewer's received list, and the viewer leaves the requester's sent list. Both request lists stay present, every other entry survives in its order (a removal, see Seqs.RemoveAllFront), and no other field changes. |
| Friends.Reject | Pages/Friends.jsx:112-127 | Rejecting throws when the viewer has no received list. Otherwise it removes the same request entries as accepting. Both request lists stay present, every other entry survives in its order, and no other field changes. |
| Friends.Unfriend | Pages/Friends.jsx:133-143 | Removing a friend throws when the viewer has no friends list. Otherwise each party disappears from the other's friends list. Both lists stay present, every other friend survives in its order, and no other field changes. |
| Friends.BadgeFor | Pages/Friends.jsx:160-199 | The badge is "Friends" exactly for friends. Otherwise it is "Pending" for sent requests, then "Respond in Requests" for received ones, and "Add Friend" otherwise. |
| Friends.BadgeAfterSend | Pages/Friends.jsx:70-80 | After sending a request, the target shows as pending unless already a friend. |
| Friends.BadgeAfterAccept | Pages/Friends.jsx:86-105 | After accepting, the requester shows as a friend. |
| Friends.BadgeAfterReject | Pages/Friends.jsx:112-127 | After rejecting, the requester no longer waits for an answer. |
| Friends.BadgeAfterUnfriend | Pages/Friends.jsx:133-143 | After removing a friend, they no longer show as one. |
| Friends.AcceptIsRejectPlusFriends | Pages/Friends.jsx:86-127 | Accepting and rejecting write the same request lists; they differ only in the two friends lists. |
| Friends.Search | Pages/Friends.jsx:57-65 | A blank query does nothing. Otherwise the results are exactly the listed users whose username contains the untrimmed query, ignoring case, other than the viewer. Each kept user appears as often as in the listed users. |
| Friends.SearchAppend | Pages/Friends.jsx:62-65 | Searching a concatenated list is searching each part and concatenating the results, so the results keep the list's order. |
| Friends.SearchKeepsSpaces | Pages/Friends.jsx:58-63 | The query " ab" passes the blank guard but finds nothing, even though a user named "ab" matches its trimmed text. |
| Friends.SearchTrimmed | Pages/Friends.jsx:57-65 | The corrected search matches on the trimmed query. |
| Friends.SearchTrimmedIgnoresPadding | Pages/Friends.jsx:58-63 | With the correction, a query and its trimmed form give the same answer. |
| Friends.SearchTrimmedFindsPadded | Pages/Friends.jsx:58-63 | With the correction, the query " ab" finds the user named "ab". |
| Friends.FriendsList | Pages/Friends.jsx:26-33 | The friends shown are exactly the stored users in the viewer's friends list, other than the viewer. |
| Friends.RequestsList | Pages/Friends.jsx:36-43 | The requests shown are exactly the stored users in the viewer's received list. |
| Friends.AcceptMovesRequester | Pages/Friends.jsx:86-109 | After accepting, the requester appears among the friends and no longer among the requests. |
| Onboarding.ValidateUsername | App/Pages/Onboarding.jsx:64-75 | The message is empty if and only if the name has 3 to 20 characters, all letters, digits or underscores; 20 itself is accepted. A name under 3 characters gets the "at least 3" message before any other rule, and one over 20 gets the length message. A name of 3 to 20 characters with any other character gets the letters-numbers-underscores message. The message is always one of these three or empty. |
| Onboarding.Taken | App/Pages/Onboarding.jsx:77-84 | A name is taken if and only if another account has a username equal to it ignoring case. Onboarding.TakenIgnoresCase and Onboarding.SavedNameIsFree build on it. |
| Onboarding.LowerStaysValid | App/Pages/Onboarding.jsx:64-75 | Lower-casing keeps a valid username valid. |
| Onboarding.TakenIgnoresCase | App/Pages/Onboarding.jsx:77-84 | A name is taken if and only if its lower-case form is, because availability compares names ignoring case. |
| Onboarding.SubmitUsername | App/Pages/Onboarding.jsx:86-104 | The submit reports the validation message when validation fails, and reports "taken" exactly when the name is valid but taken. Otherwise it stores the lower-cased name, which is itself valid. |
| Onboarding.SavedNameIsFree | App/Pages/Onboarding.jsx:86-104 | A stored username is not in use by any other account, in any letter case. |
| Onboarding.Complete | App/Pages/Onboarding.jsx:110-121 | Completing does nothing with no interests. Otherwise it marks onboarding complete, stores the interests and empties all three friendship lists. Every other field of the record, including the name, bio, avatar, coordinates and id, is unchanged. |
| Onboarding.Skip | App/Pages/Onboarding.jsx:131-140 | Skipping marks onboarding complete with no interests and empty friendship lists. Every other field of the record is unchanged. |
| Onboarding.SkipIsCompleteWithoutInterests | App/Pages/Onboarding.jsx:110-140 | Skipping writes what completing writes, except for the interest list. |
| Onboarding.FreshRelationships | App/Pages/Onboarding.jsx:110-140 | After completing or skipping, every other user shows "Add Friend". |
| Seqs.Toggle | App/Pages/Onboarding.jsx:56-62 | Toggling flips membership. An absent id is appended at the end. A present one loses every occurrence, which is a removal that keeps the other ids in their order (Seqs.RemoveAllFront). Other ids keep their counts. |
| Seqs.RemoveAllAppend | App/Pages/Onboarding.jsx:59 | Removing an id from a concatenation is removing it from each part, in order. |
| Seqs.RemoveAllFront | App/Pages/Onboarding.jsx:59 | Removal goes element by element from the front: the first element is dropped exactly when it is the removed id, and the rest follow in order. |
| Profile.ToggleInterest | Pages/Profile.jsx:78-84 | The profile's toggle has the same behaviour: an absent id is appended, and a present one loses every occurrence while the other ids keep their order and counts. |
| Profile.ToggleInterestTwice | Pages/Profile.jsx:78-84 | Toggling the same absent id twice restores the list exactly. |
| Profile.FormFor | Pages/Profile.jsx:41-45 | Each form field is the user's value, or "" when absent. |
| Profile.SaveForm | Pages/Profile.jsx:60-62 | Saving writes the three form fields onto the record, and every other field is unchanged. Profile.SaveThenLoad is its round trip. |
| Profile.InitialSelection | Pages/Profile.jsx:46 | The interest editor starts from the user's list, or an empty one when there is none. |
| Profile.SaveInterests | Pages/Profile.jsx:68-70 | Saving interests stores the edited list, and every other field is unchanged. Profile.SaveInterestsThenLoad is its round trip. |
| Profile.SaveThenLoad | Pages/Profile.jsx:60-63 | Saving a form and reloading the profile shows the same form. |
| Profile.SaveUnedited | Pages/Profile.jsx:41-63 | Saving an unedited form leaves the form unchanged, and leaves the user unchanged when all three fields were present. |
| Profile.SaveInterestsThenLoad | Pages/Profile.jsx:68-71 | Saving the edited interests and reloading gives the editor the same list. |
| Profile.InterestLabel | Pages/Profile.jsx:182 | The label has the id's length. Every underscore becomes a space, and every other character is kept in place. |
| Profile.InterestLabelPlain | Pages/Profile.jsx:182 | An id without underscores is shown unchanged. |
| Profile.ShownInterests | Pages/Profile.jsx:176-184 | At most five labels are shown, one per leading interest and in order. |
| Profile.ShownAfterSave | Pages/Profile.jsx:176-184 | After saving at most five interests without underscores, the profile shows exactly those ids in the saved order. |
| Summary.LoadBuckets | Pages/Summary.jsx:59-82 | Buckets exist only with a location and a user. A category has a bucket if and only if it is one of the user's interests, and no category has two. Every bucketed post is within 5 miles and of its bucket's category. |
| Summary.BucketMembership | Pages/Summary.jsx:65-82 | A bucket holds exactly the stored posts of its category within 5 miles, each carrying its own distance. |
| Summary.BucketFor | Pages/Summary.jsx:81 | A bucket carries its category, and each of its posts is a nearby post of that category. |
| Summary.BucketNewestFirst | Pages/Summary.jsx:63-82 | Each bucket keeps the store's newest-first order. |
| Summary.RequestFor | Pages/Summary.jsx:98-99 | A summary request carries the category, its label from the table or the raw id, and text that starts with the first post's content. A one-post bucket gives exactly that content, and with two or more posts a blank line follows it. |
| Summary.RequestExtend | Pages/Summary.jsx:98 | Below five posts, one more post appends a blank line and its content to the text, so the text is the contents joined by blank lines. |
| Summary.RequestFirstFive | Pages/Summary.jsx:98 | With five or more posts, posts after the fifth do not change the request. |
| Summary.RequestsExactly | Pages/Summary.jsx:94-99 | A request is made if and only if it is the request of a non-empty bucket. |
| Summary.Requests | Pages/Summary.jsx:94-99 | There is at most one request per bucket. Summary.RequestsExactly states which buckets get one. |
| Summary.Shown | Pages/Summary.jsx:238 | At most two posts are shown per category, and they are the bucket's first ones. A bucket with two or more shows two, and a smaller one shows all its posts. |
| Summary.ShownFirstTwo | Pages/Summary.jsx:238 | Once a bucket has two posts, later posts do not change what is shown. |
| Interests.LabelInTable | Pages/Summary.jsx:99 | In a table with distinct ids and non-empty labels, a listed id shows its label and any other id shows itself. |
| Interests.Label | Pages/Summary.jsx:99 | A known category id gets its label from the table, and any other string is shown as it is. |
| Interests.CategoriesWellFormed | Components/interests/InterestsSelector.jsx:6-16 | The nine categories have distinct ids and non-empty labels, and `casual_chats` reads "Casual Chats". |
| Likes.LikeCount | Components/feed/PostCard.jsx:18 | The count is the list's length, or 0 when absent, and is 0 exactly when nobody likes the post. |
| Likes.NewLikes | Components/feed/PostCard.jsx:24-26 | The liker's membership flips. A like appends one copy to the list, an absent list read as empty. An unlike removes every copy. Other emails keep their counts. |
| Likes.CardClick | Components/feed/PostCard.jsx:20-28 | A click while a like is in flight is ignored. Otherwise one request goes out for this post, with the liker's membership flipped. |
| Likes.MapClick | App/Components/map/PostMap.jsx:186-193 | The map's like sends one request for this post, with the liker's membership flipped. |
| Likes.ClicksAgree | App/Components/map/PostMap.jsx:186-193 | The idle card and the map send the same request, and its list is the generic toggle of the old list. |
| Likes.LikeCountAfterToggle | Components/feed/PostCard.jsx:17-26 | A like adds one to the count; an unlike subtracts the number of copies of the email. |
| Likes.LikeThenUnlike | Components/feed/PostCard.jsx:24-26 | Liking and then unliking restores the list; an absent list comes back empty. |
| CreatePost.Submit | Components/feed/CreatePost.jsx:43-69 | A submit is ignored exactly when the trimmed content is empty or there is no location, and it throws when there is no user. Otherwise the post carries the trimmed content, no likes, the location, the category and the author fields. Its image URL is the upload of the chosen file, or absent when there is none, and the draft resets. |
| CreatePost.ResetAfterSubmit | Components/feed/CreatePost.jsx:13 | After a submit the composer is back at its initial state, with category `casual_chats`, so submitting again is ignored. |
| Text.Trim | App/Components/chat/MessageInput.jsx:12-15 | The trimmed text is a slice of the input with only whitespace cut from both ends. It is empty exactly when the input is blank, and otherwise starts and ends with a non-space. |
| Text.TrimIdempotent | App/Components/chat/MessageInput.jsx:12-15 | Trimming twice is trimming once. |
| Text.JoinSnoc | Pages/Summary.jsx:98 | Joining one more part appends the separator and that part. |

## Left out

- Distance. The haversine `calculateDistance` appears in four files and is floating-point
  trigonometry. Every operation takes the distance as a parameter, and nothing is assumed
  about it: not symmetry, and not zero distance to oneself.
- Clustering.ClusterPostsGreedy: the centre is a mean over mathematical reals. Rounding
  in JavaScript's floating-point sum and division is not modelled.
- Chat.TooSoonMillis: the division by 1000 is exact over reals. Floating-point rounding
  near the 4000 ms boundary is not modelled.
- Text.Lower: `toLowerCase` is modelled on the ASCII letters A-Z only. Full Unicode case
  mapping is out of scope, and usernames are restricted to ASCII anyway.
- Strings are sequences of characters. JavaScript's UTF-16 lengths differ for characters
  outside the Basic Multilingual Plane, which matters only for the username length rule.
- Summary.LoadBuckets: the buckets are modelled as an object built in interest order,
  one per distinct interest. JavaScript lists integer-like keys first. Interest ids are
  never integer-like, so this is not modelled.
- Backend calls are parameters: the store's answer (the `stored` and `users` lists),
  its query order and limits (100 messages, 50 summary posts). Create, update and delete
  are represented only by the records they would receive.
- Friends: each action writes two records in two separate, non-atomic calls. Races
  between users and partial failures are concurrency against a remote store, and are
  out of scope.
- MessageInput.Submit: models a send whose `onSend` resolves. If `onSend` rejects,
  `handleSubmit` (App/Components/chat/MessageInput.jsx:14-17) never reaches
  `setIsSending(false)`, so the box stays disabled until the component remounts. That
  path is not modelled.
- Likes.CardClick: models a like whose `onLike` resolves. If `onLike` rejects,
  `isLiking` (Components/feed/PostCard.jsx:21-27) is never reset and the card's button
  ignores every later click. That path is not modelled.
- CreatePost.Submit: the image upload is a parameter mapping a file to its URL. Upload
  failure is not modelled.
- The language-model summary call. The model stops at the request text it would receive.
- Timers and effects are not modelled: the 3-second polling, the map resize timers and
  visibility listeners. The one-second cooldown timer is modelled as a discrete `Tick`.
- Geolocation, the address search service, theme loading and onboarding's redirect on
  load, because they are I/O or navigation only.
- Rendering-only components are not modelled: message bubbles, the online-users list,
  the location sidebar, the map search box, the comment dialog and the layout.
- Dates are integers in milliseconds. Date parsing and display formatting are not
  modelled.

## Findings

| source | as written | input that shows it | evidently intended | confidence | as-written member | corrected member |
|---|---|---|---|---|---|---|
| Pages/Friends.jsx:58-63 | The blank-query guard trims the query, but the filter matches usernames against the untrimmed query. | The query " ab" with a user named "ab": the guard passes and the result is empty. | Match usernames against the trimmed query, so surrounding spaces do not change the results. | medium, not executed | Friends.SearchKeepsSpaces | Friends.SearchTrimmedIgnoresPadding |

Clustering depends on the input order. Take three posts in a line, `a`–`b`–`c`, where
`a`–`b` and `b`–`c` are within the radius but `a`–`c` is not. In the order `a, b, c` they
cluster as {a, b} and {c}, because a pin absorbs only posts near its seed. In the order
`b, a, c` they form the single pin {b, a, c}. `Clustering.ClusterChaining` proves both.

=== FILE: chat.dfy ===
/** The local chat page: which messages and users count as nearby, when an avatar is
    shown, and the slowmode gate on sending.

    Slowmode is a small state machine: the time of the last accepted send (milliseconds)
    and a cooldown counter (seconds) that a one-second timer counts down. */
module Chat {
  import opened Optional
  import opened Seqs
  import opened Geo
  import opened Entities
  import MessageInput

  // ---------------------------------------------------------------------------
  // Nearby messages

  /** `loadMessages`: `stored` is the store's answer for the selected channel, newest
      first. Without a location or a channel nothing is loaded; otherwise the messages
      within 5 miles, annotated with their distance, in the reverse of the store's order. */
  function LoadMessages(location: Option<Coord>, channel: Option<string>, stored: seq<Message>, dist: Distance): (r: Option<seq<Nearby<Message>>>)
    ensures r.Some? <==> location.Some? && channel.Some? && channel.value != ""
    ensures r.Some? ==> |r.value| <= |stored|
    ensures r.Some? ==> forall i :: 0 <= i < |r.value| ==> r.value[i].distance <= RadiusMiles
  {
    if location.None? || channel.None? || channel.value == "" then None
    else Some(Reverse(Filter(Annotate(location.value, stored, MessageAt, dist), InRadius)))
  }

  /** A message is shown exactly when it was stored and lies within 5 miles; it carries
      its own distance. */
  lemma LoadMessagesMembership(origin: Coord, channel: string, stored: seq<Message>, dist: Distance, n: Nearby<Message>)
    requires channel != ""
    ensures n in LoadMessages(Some(origin), Some(channel), stored, dist).value
      <==> n.item in stored && n.distance == dist(origin, n.item.at) && n.distance <= RadiusMiles
  {
    var annotated := Annotate(origin, stored, MessageAt, dist);
    var kept := Filter(annotated, InRadius);
    ReversePermutation(kept);
    assert n in Reverse(kept) <==> n in kept by {
      assert n in Reverse(kept) <==> multiset(Reverse(kept))[n] > 0;
      assert n in kept <==> multiset(kept)[n] > 0;
    }
    FilterMembership(annotated, InRadius, n);
    AnnotateMembership(origin, stored, MessageAt, dist, n);
  }

  /** The store answers newest first, so the page lists messages oldest first. */
  lemma LoadMessagesOldestFirst(origin: Coord, channel: string, stored: seq<Message>, dist: Distance)
    requires channel != ""
    requires forall i, j :: 0 <= i < j < |stored| ==> stored[j].createdDate <= stored[i].createdDate
    ensures SortedAsc(LoadMessages(Some(origin), Some(channel), stored, dist).value, MessageCreated)
  {
    var annotated := Annotate(origin, stored, MessageAt, dist);
    assert SortedDesc(annotated, MessageCreated);
    FilterSortedDesc(annotated, InRadius, MessageCreated);
    ReverseSortedDesc(Filter(annotated, InRadius), MessageCreated);
  }

  // ---------------------------------------------------------------------------
  // Nearby users

  /** What the page keeps of a nearby user. */
  datatype NearbyUser = NearbyUser(name: Option<string>, avatar: Option<string>, distance: real)

  /** `user.latitude && user.longitude`: both present and non-zero. */
  predicate HasCoordinates(u: User)
  {
    u.latitude.Some? && u.latitude.value != 0.0 && u.longitude.Some? && u.longitude.value != 0.0
  }

  /** The user's position (read only after `HasCoordinates` held). */
  function UserAt(u: User): Coord
  {
    Coord(u.latitude.GetOr(0.0), u.longitude.GetOr(0.0))
  }

  /** `0 < distance <= RADIUS_MILES`: the viewer's own record, at distance 0, is dropped. */
  predicate Close(n: Nearby<User>)
  {
    0.0 < n.distance <= RadiusMiles
  }

  function Project(n: Nearby<User>): NearbyUser
  {
    NearbyUser(n.item.fullName, n.item.avatarUrl, n.distance)
  }

  /** `loadNearbyUsers` over the store's user list. */
  function NearbyUsers(location: Option<Coord>, users: seq<User>, dist: Distance): (r: Option<seq<NearbyUser>>)
    ensures r.Some? <==> location.Some?
    ensures r.Some? ==> |r.value| <= |users|
    ensures r.Some? ==> forall i :: 0 <= i < |r.value| ==> 0.0 < r.value[i].distance <= RadiusMiles
  {
    if location.None? then None
    else
      var located := Filter(users, HasCoordinates);
      var close := Filter(Annotate(location.value, located, UserAt, dist), Close);
      Some(Map(Project, close))
  }

  /** A user is listed when they have coordinates and are more than 0 and at most
      5 miles away. */
  predicate Listed(origin: Coord, dist: Distance, u: User)
  {
    HasCoordinates(u) && 0.0 < dist(origin, UserAt(u)) <= RadiusMiles
  }

  /** The entry a listed user gets. */
  function EntryOf(origin: Coord, dist: Distance, u: User): NearbyUser
  {
    NearbyUser(u.fullName, u.avatarUrl, dist(origin, UserAt(u)))
  }

  /** Every entry of the nearby list is the name, avatar and distance of a listed user. */
  lemma NearbyUsersSound(origin: Coord, users: seq<User>, dist: Distance, i: nat)
    requires i < |NearbyUsers(Some(origin), users, dist).value|
    ensures exists u :: u in users && Listed(origin, dist, u) && NearbyUsers(Some(origin), users, dist).value[i] == EntryOf(origin, dist, u)
  {
    var located := Filter(users, HasCoordinates);
    var annotated := Annotate(origin, located, UserAt, dist);
    var close := Filter(annotated, Close);
    var n := close[i];
    FilterMembership(annotated, Close, n);
    AnnotateMembership(origin, located, UserAt, dist, n);
    FilterMembership(users, HasCoordinates, n.item);
    assert NearbyUsers(Some(origin), users, dist).value[i] == EntryOf(origin, dist, n.item);
  }

  /** Every listed user has an entry in the nearby list. */
  lemma NearbyUsersComplete(origin: Coord, users: seq<User>, dist: Distance, u: User)
    requires u in users && Listed(origin, dist, u)
    ensures EntryOf(origin, dist, u) in NearbyUsers(Some(origin), users, dist).value
  {
    var located := Filter(users, HasCoordinates);
    var annotated := Annotate(origin, located, UserAt, dist);
    var close := Filter(annotated, Close);
    var n := Nearby(u, dist(origin, UserAt(u)));
    FilterMembership(users, HasCoordinates, u);
    AnnotateMembership(origin, located, UserAt, dist, n);
    FilterMembership(annotated, Close, n);
    var k :| 0 <= k < |close| && close[k] == n;
    assert NearbyUsers(Some(origin), users, dist).value[k] == EntryOf(origin, dist, u);
  }

  // ---------------------------------------------------------------------------
  // Avatars

  /** The gap after which a sender's next message shows the avatar again. */
  const AvatarGapMillis: int := 60000

  /** `showAvatar` for the message at `i` of the displayed list. */
  predicate ShowAvatar(msgs: seq<Nearby<Message>>, i: nat): (b: bool)
    requires i < |msgs|
    ensures i == 0 ==> b
    ensures 0 < i && msgs[i - 1].item.senderEmail != msgs[i].item.senderEmail ==> b
    ensures 0 < i && msgs[i].item.createdDate - msgs[i - 1].item.createdDate > AvatarGapMillis ==> b
    ensures (0 < i && msgs[i - 1].item.senderEmail == msgs[i].item.senderEmail
             && msgs[i].item.createdDate - msgs[i - 1].item.createdDate <= AvatarGapMillis) ==> !b
  {
    i == 0
    || msgs[i - 1].item.senderEmail != msgs[i].item.senderEmail
    || msgs[i].item.createdDate - msgs[i - 1].item.createdDate > AvatarGapMillis
  }

  /** In a run of messages by one sender, each within a minute of the previous one,
      only the first message shows the avatar. */
  lemma AvatarOncePerRun(msgs: seq<Nearby<Message>>)
    requires forall i :: 0 < i < |msgs| ==>
      msgs[i].item.senderEmail == msgs[0].item.senderEmail
      && msgs[i].item.createdDate - msgs[i - 1].item.createdDate <= AvatarGapMillis
    ensures forall i :: 0 <= i < |msgs| ==> (ShowAvatar(msgs, i) <==> i == 0)
  {
  }

  /** A pause of more than a minute starts a new run: the same sender's next message
      shows the avatar again, and the run from there on shows it only once. */
  lemma AvatarAfterPause(msgs: seq<Nearby<Message>>, i: nat)
    requires 0 < i < |msgs|
    requires msgs[i].item.createdDate - msgs[i - 1].item.createdDate > AvatarGapMillis
    requires forall j :: i < j < |msgs| ==>
      msgs[j].item.senderEmail == msgs[i].item.senderEmail
      && msgs[j].item.createdDate - msgs[j - 1].item.createdDate <= AvatarGapMillis
    ensures ShowAvatar(msgs, i)
    ensures forall j :: i < j < |msgs| ==> !ShowAvatar(msgs, j)
  {
    var run := msgs[i..];
    AvatarOncePerRun(run);
    forall j | i < j < |msgs|
      ensures !ShowAvatar(msgs, j)
    {
      assert !ShowAvatar(run, j - i);
      assert run[j - i] == msgs[j] && run[j - i - 1] == msgs[j - 1];
    }
  }

  // ---------------------------------------------------------------------------
  // Slowmode

  /** More than this many nearby users switch slowmode on. */
  const SlowmodeUsers: nat := 10

  /** The minimum spacing of sends under slowmode, and the cooldown it starts. */
  const SlowmodeSeconds: nat := 4

  /** `lastMessageTime` (`None` before the first send) and `slowmodeCooldown`. */
  datatype Slowmode = Slowmode(lastMessageTime: Option<int>, cooldown: nat)

  const InitialSlowmode: Slowmode := Slowmode(None, 0)

  /** `nearbyUsers.length > 10`. */
  predicate SlowmodeActive(nearbyCount: nat)
  {
    nearbyCount > SlowmodeUsers
  }

  /** `lastMessageTime` is truthy and `(now - lastMessageTime) / 1000 < 4`, the elapsed
      time measured in seconds. */
  predicate TooSoon(g: Slowmode, now: int)
  {
    g.lastMessageTime.Some? && g.lastMessageTime.value != 0
    && ((now - g.lastMessageTime.value) as real) / 1000.0 < SlowmodeSeconds as real
  }

  /** The elapsed-seconds test is the integer test "less than 4000 ms ago". */
  lemma TooSoonMillis(g: Slowmode, now: int)
    ensures TooSoon(g, now) <==>
      g.lastMessageTime.Some? && g.lastMessageTime.value != 0 && now - g.lastMessageTime.value < 4000
  {
    if g.lastMessageTime.Some? {
      var d := (now - g.lastMessageTime.value) as real;
      assert d / 1000.0 < 4.0 <==> d < 4000.0;
    }
  }

  /** The message record `handleSendMessage` hands to the store. */
  datatype OutgoingMessage = OutgoingMessage(
    content: string,
    at: Coord,
    senderName: Option<string>,
    senderEmail: string,
    senderAvatar: Option<string>,
    channel: Option<string>)

  /** `handleSendMessage(content)` at time `now`: the new slowmode state and the message
      created, if any. */
  function Send(g: Slowmode, nearbyCount: nat, now: int, location: Option<Coord>, user: Option<User>,
                channel: Option<string>, content: string): (r: (Slowmode, Option<OutgoingMessage>))
    ensures location.None? || user.None? ==> r == (g, None)
    ensures SlowmodeActive(nearbyCount) && TooSoon(g, now) ==> r == (g, None)
    ensures location.Some? && user.Some? && !(SlowmodeActive(nearbyCount) && TooSoon(g, now)) ==>
      && r.0.lastMessageTime == Some(now)
      && r.0.cooldown == (if SlowmodeActive(nearbyCount) then SlowmodeSeconds else g.cooldown)
      && r.1 == Some(OutgoingMessage(content, location.value, user.value.fullName, user.value.email,
                                     user.value.avatarUrl, channel))
  {
    if location.None? || user.None? then (g, None)
    else if SlowmodeActive(nearbyCount) && TooSoon(g, now) then (g, None)
    else
      var cooldown := if SlowmodeActive(nearbyCount) then SlowmodeSeconds else g.cooldown;
      var u := user.value;
      (Slowmode(Some(now), cooldown),
       Some(OutgoingMessage(content, location.value, u.fullName, u.email, u.avatarUrl, channel)))
  }

  /** Without slowmode, or before any send, a send with a location and a user always
      goes through, however little time has passed. */
  lemma SendProceeds(g: Slowmode, nearbyCount: nat, now: int, location: Coord, user: User, channel: Option<string>, content: string)
    requires !SlowmodeActive(nearbyCount) || g.lastMessageTime.None?
    ensures Send(g, nearbyCount, now, Some(location), Some(user), channel, content).1.Some?
  {
  }

  /** One second of the cooldown timer: down by one while positive. */
  function Tick(cooldown: nat): (r: nat)
    ensures cooldown > 0 ==> r == cooldown - 1
    ensures cooldown == 0 ==> r == 0
  {
    if cooldown > 0 then cooldown - 1 else 0
  }

  /** `k` seconds of the timer. */
  function Ticks(cooldown: nat, k: nat): nat
  {
    if k == 0 then cooldown else Tick(Ticks(cooldown, k - 1))
  }

  /** After `k` seconds the cooldown has dropped by `k`, stopping at 0. */
  lemma {:induction false} TicksCount(cooldown: nat, k: nat)
    ensures Ticks(cooldown, k) == if k <= cooldown then cooldown - k else 0
  {
    if k > 0 {
      TicksCount(cooldown, k - 1);
    }
  }

  /** `disabled` as the page passes it to the message box. */
  predicate InputBlocked(location: Option<Coord>, user: Option<User>, nearbyCount: nat, cooldown: nat): (b: bool)
    ensures location.None? || user.None? ==> b
    ensures location.Some? && user.Some? && !SlowmodeActive(nearbyCount) ==> !b
    ensures cooldown == 0 ==> (b <==> location.None? || user.None?)
  {
    location.None? || user.None? || (SlowmodeActive(nearbyCount) && cooldown > 0)
  }

  /** After an accepted send under slowmode the message box stays disabled for the next
      three seconds and, when no send of its own is in flight, is enabled again after four.
      The box is given the page's `disabled` and the same cooldown, as the page passes them. */
  lemma CooldownBlocksInput(g: Slowmode, nearbyCount: nat, now: int, location: Coord, user: User,
                            channel: Option<string>, content: string, box: MessageInput.Input, k: nat)
    requires SlowmodeActive(nearbyCount) && !TooSoon(g, now)
    ensures var g' := Send(g, nearbyCount, now, Some(location), Some(user), channel, content).0;
      && (k < SlowmodeSeconds ==> InputBlocked(Some(location), Some(user), nearbyCount, Ticks(g'.cooldown, k)))
      && (k < SlowmodeSeconds ==> MessageInput.InputDisabled(
            InputBlocked(Some(location), Some(user), nearbyCount, Ticks(g'.cooldown, k)), box, Ticks(g'.cooldown, k)))
      && (k >= SlowmodeSeconds ==> !InputBlocked(Some(location), Some(user), nearbyCount, Ticks(g'.cooldown, k)))
      && (k >= SlowmodeSeconds && !box.isSending ==> !MessageInput.InputDisabled(
            InputBlocked(Some(location), Some(user), nearbyCount, Ticks(g'.cooldown, k)), box, Ticks(g'.cooldown, k)))
  {
    TicksCount(SlowmodeSeconds, k);
  }

  /** With 15 users nearby: a first send goes through, a second one a second later is
      dropped without touching the state, and one four seconds after the first goes
      through again. */
  lemma SlowmodeScenario(t0: int, location: Coord, user: User, channel: Option<string>)
    requires t0 != 0
    ensures var (g1, m1) := Send(InitialSlowmode, 15, t0, Some(location), Some(user), channel, "a");
      && m1.Some? && g1 == Slowmode(Some(t0), 4)
      && Send(g1, 15, t0 + 1000, Some(location), Some(user), channel, "b") == (g1, None)
      && Send(g1, 15, t0 + 4000, Some(location), Some(user), channel, "c").1.Some?
  {
    var g1 := Slowmode(Some(t0), 4);
    TooSoonMillis(g1, t0 + 1000);
    TooSoonMillis(g1, t0 + 4000);
  }
}

=== FILE: clustering.dfy ===
/** The map's greedy, single-pass grouping of posts into pins (`clusterPosts`).

    Posts are visited in input order. A post not yet assigned to a cluster seeds a new
    cluster; every other unassigned post within the merge radius of that seed joins it
    at once. A cluster's pin sits at the mean of its members' coordinates.

    The algorithm is modelled on indices, as the source does with its `processed` set,
    and then lifted to posts. */
module Clustering {
  import opened Seqs
  import opened Geo
  import opened Entities
  import opened Indexing

  /** One map pin: its centre, its members (seed first) and the seed's distance. */
  datatype Cluster = Cluster(latitude: real, longitude: real, posts: seq<Nearby<Post>>, distance: real)

  /** `calculateDistance(seed, other) <= radiusInMiles`, measured from the seed. */
  predicate Near(dist: Distance, radius: real, seed: Nearby<Post>, other: Nearby<Post>)
  {
    dist(seed.item.at, other.item.at) <= radius
  }

  /** The inner scan of one pass: the indices from `j` on, other than the seed, that are
      unprocessed and within the radius of the seed, in increasing order. */
  function Absorbed(posts: seq<Nearby<Post>>, dist: Distance, radius: real, seed: nat, done: set<nat>, j: nat): (r: seq<nat>)
    requires seed < |posts| && j <= |posts|
    ensures forall t :: 0 <= t < |r| ==>
      j <= r[t] < |posts| && r[t] != seed && r[t] !in done && Near(dist, radius, posts[seed], posts[r[t]])
    ensures forall t, u :: 0 <= t < u < |r| ==> r[t] < r[u]
    ensures forall k :: j <= k < |posts| && k != seed && k !in done && Near(dist, radius, posts[seed], posts[k]) ==> k in r
    decreases |posts| - j
  {
    if j == |posts| then []
    else if j != seed && j !in done && Near(dist, radius, posts[seed], posts[j]) then
      [j] + Absorbed(posts, dist, radius, seed, done, j + 1)
    else
      Absorbed(posts, dist, radius, seed, done, j + 1)
  }

  function Elems(s: seq<nat>): set<nat>
  {
    set k | k in s
  }

  /** The outer scan from index `i` on, with `done` the indices already processed. */
  function Passes(posts: seq<Nearby<Post>>, dist: Distance, radius: real, i: nat, done: set<nat>): (cs: seq<seq<nat>>)
    requires i <= |posts|
    ensures |cs| <= |posts| - i
    decreases |posts| - i
  {
    if i == |posts| then []
    else if i in done then Passes(posts, dist, radius, i + 1, done)
    else
      var absorbed := Absorbed(posts, dist, radius, i, done, 0);
      [[i] + absorbed] + Passes(posts, dist, radius, i + 1, done + {i} + Elems(absorbed))
  }

  /** Every index in `cs` lies in `[lo, n)` and outside `done`. */
  predicate Within(cs: seq<seq<nat>>, lo: nat, n: nat, done: set<nat>)
  {
    forall p, t :: 0 <= p < |cs| && 0 <= t < |cs[p]| ==> lo <= cs[p][t] < n && cs[p][t] !in done
  }

  /** Every cluster is non-empty and lists its indices in increasing order,
      so its seed, listed first, is its smallest index. */
  predicate Ascending(cs: seq<seq<nat>>)
  {
    forall p :: 0 <= p < |cs| ==> |cs[p]| > 0 && forall t, u :: 0 <= t < u < |cs[p]| ==> cs[p][t] < cs[p][u]
  }

  /** Every non-seed member is within the radius of its cluster's seed. */
  predicate NearSeed(posts: seq<Nearby<Post>>, dist: Distance, radius: real, cs: seq<seq<nat>>)
    requires Within(cs, 0, |posts|, {})
  {
    forall p, t :: 0 <= p < |cs| && 0 < t < |cs[p]| ==> Near(dist, radius, posts[cs[p][0]], posts[cs[p][t]])
  }

  /** Greedy absorption: no index of a later cluster was within the radius of an earlier
      cluster's seed, and every later index comes after that seed. */
  predicate Greedy(posts: seq<Nearby<Post>>, dist: Distance, radius: real, cs: seq<seq<nat>>)
    requires Ascending(cs) && Within(cs, 0, |posts|, {})
  {
    forall p, q, t :: 0 <= p < q < |cs| && 0 <= t < |cs[q]| ==>
      cs[p][0] < cs[q][t] && !Near(dist, radius, posts[cs[p][0]], posts[cs[q][t]])
  }

  lemma {:induction false} PassesShape(posts: seq<Nearby<Post>>, dist: Distance, radius: real, i: nat, done: set<nat>)
    requires i <= |posts|
    requires forall k :: 0 <= k < i ==> k in done
    ensures Within(Passes(posts, dist, radius, i, done), i, |posts|, done)
    ensures Ascending(Passes(posts, dist, radius, i, done))
    decreases |posts| - i
  {
    if i < |posts| {
      if i in done {
        PassesShape(posts, dist, radius, i + 1, done);
      } else {
        var absorbed := Absorbed(posts, dist, radius, i, done, 0);
        var done' := done + {i} + Elems(absorbed);
        PassesShape(posts, dist, radius, i + 1, done');
        var head := [i] + absorbed;
        forall t | 0 <= t < |absorbed|
          ensures i < absorbed[t]
        {
          assert absorbed[t] !in done;
        }
        assert forall t, u :: 0 <= t < u < |head| ==> head[t] < head[u];
      }
    }
  }

  lemma {:induction false} PassesCover(posts: seq<Nearby<Post>>, dist: Distance, radius: real, i: nat, done: set<nat>)
    requires i <= |posts|
    requires forall k :: 0 <= k < i ==> k in done
    ensures forall k :: 0 <= k < |posts| && k !in done ==> k in Flatten(Passes(posts, dist, radius, i, done))
    decreases |posts| - i
  {
    if i < |posts| {
      if i in done {
        PassesCover(posts, dist, radius, i + 1, done);
      } else {
        var absorbed := Absorbed(posts, dist, radius, i, done, 0);
        var done' := done + {i} + Elems(absorbed);
        PassesCover(posts, dist, radius, i + 1, done');
        var cs := Passes(posts, dist, radius, i, done);
        assert Flatten(cs) == ([i] + absorbed) + Flatten(Passes(posts, dist, radius, i + 1, done'));
      }
    }
  }

  lemma {:induction false} PassesDistinct(posts: seq<Nearby<Post>>, dist: Distance, radius: real, i: nat, done: set<nat>)
    requires i <= |posts|
    requires forall k :: 0 <= k < i ==> k in done
    ensures Distinct(Flatten(Passes(posts, dist, radius, i, done)))
    decreases |posts| - i
  {
    if i < |posts| {
      if i in done {
        PassesDistinct(posts, dist, radius, i + 1, done);
      } else {
        var absorbed := Absorbed(posts, dist, radius, i, done, 0);
        var done' := done + {i} + Elems(absorbed);
        var rest := Passes(posts, dist, radius, i + 1, done');
        PassesDistinct(posts, dist, radius, i + 1, done');
        PassesShape(posts, dist, radius, i, done);
        PassesShape(posts, dist, radius, i + 1, done');
        var head := [i] + absorbed;
        assert Passes(posts, dist, radius, i, done)[0] == head;
        forall x | x in Flatten(rest)
          ensures x !in head
        {
          FlattenMembership(rest, x);
          var p :| 0 <= p < |rest| && x in rest[p];
          var t :| 0 <= t < |rest[p]| && rest[p][t] == x;
          assert x !in done';
        }
        DistinctAppend(head, Flatten(rest));
        assert Flatten(Passes(posts, dist, radius, i, done)) == head + Flatten(rest);
      }
    }
  }

  lemma {:induction false} PassesNear(posts: seq<Nearby<Post>>, dist: Distance, radius: real, i: nat, done: set<nat>)
    requires i <= |posts|
    requires forall k :: 0 <= k < i ==> k in done
    ensures Within(Passes(posts, dist, radius, i, done), 0, |posts|, {})
    ensures NearSeed(posts, dist, radius, Passes(posts, dist, radius, i, done))
    decreases |posts| - i
  {
    PassesShape(posts, dist, radius, i, done);
    if i < |posts| {
      if i in done {
        PassesNear(posts, dist, radius, i + 1, done);
      } else {
        var absorbed := Absorbed(posts, dist, radius, i, done, 0);
        var done' := done + {i} + Elems(absorbed);
        PassesNear(posts, dist, radius, i + 1, done');
        var cs := Passes(posts, dist, radius, i, done);
        var rest := Passes(posts, dist, radius, i + 1, done');
        assert cs == [[i] + absorbed] + rest;
        forall p, t | 0 <= p < |cs| && 0 < t < |cs[p]|
          ensures Near(dist, radius, posts[cs[p][0]], posts[cs[p][t]])
        {
          if p > 0 {
            assert cs[p] == rest[p - 1];
          }
        }
      }
    }
  }

  /** A new first cluster seeded at `i` keeps the clustering greedy when every later
      index is past `i` and not near it. */
  lemma GreedyCons(posts: seq<Nearby<Post>>, dist: Distance, radius: real, head: seq<nat>, rest: seq<seq<nat>>)
    requires Ascending([head] + rest) && Within([head] + rest, 0, |posts|, {})
    requires |head| > 0 && head[0] < |posts|
    requires Ascending(rest) && Within(rest, 0, |posts|, {})
    requires Greedy(posts, dist, radius, rest)
    requires forall q, t :: 0 <= q < |rest| && 0 <= t < |rest[q]| ==>
      head[0] < rest[q][t] && !Near(dist, radius, posts[head[0]], posts[rest[q][t]])
    ensures Greedy(posts, dist, radius, [head] + rest)
  {
    var cs := [head] + rest;
    forall p, q, t | 0 <= p < q < |cs| && 0 <= t < |cs[q]|
      ensures cs[p][0] < cs[q][t] && !Near(dist, radius, posts[cs[p][0]], posts[cs[q][t]])
    {
      assert cs[q] == rest[q - 1];
      if p > 0 {
        assert cs[p] == rest[p - 1];
      }
    }
  }

  lemma {:induction false} PassesGreedy(posts: seq<Nearby<Post>>, dist: Distance, radius: real, i: nat, done: set<nat>)
    requires i <= |posts|
    requires forall k :: 0 <= k < i ==> k in done
    ensures Ascending(Passes(posts, dist, radius, i, done))
    ensures Within(Passes(posts, dist, radius, i, done), 0, |posts|, {})
    ensures Greedy(posts, dist, radius, Passes(posts, dist, radius, i, done))
    decreases |posts| - i
  {
    PassesShape(posts, dist, radius, i, done);
    if i < |posts| {
      if i in done {
        PassesGreedy(posts, dist, radius, i + 1, done);
      } else {
        var absorbed := Absorbed(posts, dist, radius, i, done, 0);
        var done' := done + {i} + Elems(absorbed);
        PassesGreedy(posts, dist, radius, i + 1, done');
        PassesShape(posts, dist, radius, i + 1, done');
        var head := [i] + absorbed;
        var rest := Passes(posts, dist, radius, i + 1, done');
        assert Passes(posts, dist, radius, i, done) == [head] + rest;
        forall q, t | 0 <= q < |rest| && 0 <= t < |rest[q]|
          ensures head[0] < rest[q][t] && !Near(dist, radius, posts[head[0]], posts[rest[q][t]])
        {
          var x := rest[q][t];
          assert x !in done' && i + 1 <= x < |posts|;
          assert x !in absorbed;
        }
        GreedyCons(posts, dist, radius, head, rest);
      }
    }
  }

  /** Every cluster is non-empty and names positions of the input. */
  predicate Valid(cs: seq<seq<nat>>, n: nat)
  {
    forall p :: 0 <= p < |cs| ==> |cs[p]| > 0 && Below(cs[p], n)
  }

  /** The index form of `clusterPosts`: one index sequence per cluster, seed first. */
  function ClusterIndices(posts: seq<Nearby<Post>>, dist: Distance, radius: real): (cs: seq<seq<nat>>)
    ensures |cs| <= |posts|
    ensures Valid(cs, |posts|)
  {
    PassesShape(posts, dist, radius, 0, {});
    Passes(posts, dist, radius, 0, {})
  }

  /** The index clusters partition the input: every index appears exactly once overall,
      each cluster is non-empty, ascending and seeded by its smallest index, every member
      is near its seed, and no member of a later cluster was near an earlier seed. */
  lemma ClusterIndicesPartition(posts: seq<Nearby<Post>>, dist: Distance, radius: real)
    ensures Ascending(ClusterIndices(posts, dist, radius))
    ensures Within(ClusterIndices(posts, dist, radius), 0, |posts|, {})
    ensures Distinct(Flatten(ClusterIndices(posts, dist, radius)))
    ensures forall k :: 0 <= k < |posts| ==> k in Flatten(ClusterIndices(posts, dist, radius))
    ensures NearSeed(posts, dist, radius, ClusterIndices(posts, dist, radius))
    ensures Greedy(posts, dist, radius, ClusterIndices(posts, dist, radius))
  {
    PassesShape(posts, dist, radius, 0, {});
    PassesCover(posts, dist, radius, 0, {});
    PassesDistinct(posts, dist, radius, 0, {});
    PassesNear(posts, dist, radius, 0, {});
    PassesGreedy(posts, dist, radius, 0, {});
  }

  /** The sum `posts.reduce((sum, p) => sum + f(p), 0)`, accumulated from the left. */
  function Sum(ms: seq<Nearby<Post>>, f: Nearby<Post> -> real): real
  {
    if |ms| == 0 then 0.0 else Sum(ms[..|ms| - 1], f) + f(ms[|ms| - 1])
  }

  /** The arithmetic mean of `f` over a non-empty list. */
  function Mean(ms: seq<Nearby<Post>>, f: Nearby<Post> -> real): real
    requires |ms| > 0
  {
    Sum(ms, f) / (|ms| as real)
  }

  function Lat(n: Nearby<Post>): real { n.item.at.latitude }

  function Lng(n: Nearby<Post>): real { n.item.at.longitude }

  /** One cluster record: the members in cluster order, centred on their mean position,
      carrying the seed's distance. */
  function MakeCluster(posts: seq<Nearby<Post>>, c: seq<nat>): Cluster
    requires |c| > 0 && Below(c, |posts|)
  {
    var members := Pick(posts, c);
    Cluster(Mean(members, Lat), Mean(members, Lng), members, posts[c[0]].distance)
  }

  /** The cluster records of index clusters, in the same order. */
  function Lift(posts: seq<Nearby<Post>>, cs: seq<seq<nat>>): (cl: seq<Cluster>)
    requires Valid(cs, |posts|)
    ensures |cl| == |cs|
    ensures forall p :: 0 <= p < |cs| ==> cl[p] == MakeCluster(posts, cs[p])
  {
    if |cs| == 0 then [] else [MakeCluster(posts, cs[0])] + Lift(posts, cs[1..])
  }

  /** `clusterPosts(posts, radius)`: at most one pin per post, none for no posts, and
      every pin non-empty and centred on its members. */
  function ClusterPosts(posts: seq<Nearby<Post>>, radius: real, dist: Distance): (r: seq<Cluster>)
    ensures |r| <= |posts|
    ensures posts == [] ==> r == []
    ensures Centred(r)
  {
    var cs := ClusterIndices(posts, dist, radius);
    LiftCentred(posts, cs);
    Lift(posts, cs)
  }

  /** The members of every cluster, concatenated in cluster order. */
  function AllMembers(cl: seq<Cluster>): seq<Nearby<Post>>
  {
    if |cl| == 0 then [] else cl[0].posts + AllMembers(cl[1..])
  }

  /** Lifting commutes with flattening: the members of the lifted clusters are the posts
      picked by the concatenated index clusters. */
  lemma {:induction false} AllMembersLift(posts: seq<Nearby<Post>>, cs: seq<seq<nat>>)
    requires Valid(cs, |posts|)
    ensures Below(Flatten(cs), |posts|)
    ensures AllMembers(Lift(posts, cs)) == Pick(posts, Flatten(cs))
    decreases |cs|
  {
    if |cs| > 0 {
      var tail := cs[1..];
      AllMembersLift(posts, tail);
      PickAppend(posts, cs[0], Flatten(tail));
      assert Lift(posts, cs)[1..] == Lift(posts, tail);
    }
  }

  /** Every pin has members, carries its seed's distance and sits at the mean position
      of its members, not at the seed. */
  predicate Centred(cl: seq<Cluster>)
  {
    forall p :: 0 <= p < |cl| ==>
      && |cl[p].posts| > 0
      && cl[p].distance == cl[p].posts[0].distance
      && cl[p].latitude == Mean(cl[p].posts, Lat)
      && cl[p].longitude == Mean(cl[p].posts, Lng)
  }

  /** Every non-seed member of a pin is within the radius of the pin's first post, and no
      post of a later pin is within the radius of an earlier pin's first post. */
  predicate GreedyPins(cl: seq<Cluster>, dist: Distance, radius: real)
    requires Centred(cl)
  {
    && (forall p, t :: 0 <= p < |cl| && 0 < t < |cl[p].posts| ==> Near(dist, radius, cl[p].posts[0], cl[p].posts[t]))
    && (forall p, q, t :: 0 <= p < q < |cl| && 0 <= t < |cl[q].posts| ==> !Near(dist, radius, cl[p].posts[0], cl[q].posts[t]))
  }

  /** The pins' members together are exactly the input posts, each used once; there are
      never more pins than posts, and no posts give no pins. */
  lemma ClusterPostsPartition(posts: seq<Nearby<Post>>, radius: real, dist: Distance)
    ensures posts == [] ==> ClusterPosts(posts, radius, dist) == []
    ensures |ClusterPosts(posts, radius, dist)| <= |posts|
    ensures multiset(AllMembers(ClusterPosts(posts, radius, dist))) == multiset(posts)
  {
    var cs := ClusterIndices(posts, dist, radius);
    ClusterIndicesPartition(posts, dist, radius);
    AllMembersLift(posts, cs);
    DistinctCover(Flatten(cs), |posts|);
    PickPermutation(posts, Flatten(cs), Range(|posts|));
    PickRange(posts);
  }

  /** Lifted clusters are centred on their members and carry their first member's distance. */
  lemma LiftCentred(posts: seq<Nearby<Post>>, cs: seq<seq<nat>>)
    requires Valid(cs, |posts|)
    ensures Centred(Lift(posts, cs))
  {
    var cl := Lift(posts, cs);
    forall p | 0 <= p < |cl|
      ensures |cl[p].posts| > 0 && cl[p].distance == cl[p].posts[0].distance
    {
      assert cl[p] == MakeCluster(posts, cs[p]);
      assert cl[p].posts[0] == posts[cs[p][0]];
    }
  }

  /** A lifted pin's members are the posts at its cluster's indices. */
  lemma LiftMember(posts: seq<Nearby<Post>>, cs: seq<seq<nat>>, p: nat, t: nat)
    requires Valid(cs, |posts|) && p < |cs| && t < |cs[p]|
    ensures |Lift(posts, cs)[p].posts| == |cs[p]|
    ensures Lift(posts, cs)[p].posts[t] == posts[cs[p][t]]
  {
    assert Lift(posts, cs)[p] == MakeCluster(posts, cs[p]);
  }

  /** The index clusters' seeding properties carry over to the lifted pins. */
  lemma LiftGreedy(posts: seq<Nearby<Post>>, dist: Distance, radius: real, cs: seq<seq<nat>>)
    requires Ascending(cs) && Within(cs, 0, |posts|, {}) && Valid(cs, |posts|)
    requires NearSeed(posts, dist, radius, cs) && Greedy(posts, dist, radius, cs)
    ensures Centred(Lift(posts, cs))
    ensures GreedyPins(Lift(posts, cs), dist, radius)
  {
    LiftCentred(posts, cs);
    var cl := Lift(posts, cs);
    forall p, t | 0 <= p < |cl| && 0 < t < |cl[p].posts|
      ensures Near(dist, radius, cl[p].posts[0], cl[p].posts[t])
    {
      LiftMember(posts, cs, p, 0);
      LiftMember(posts, cs, p, t);
    }
    forall p, q, t | 0 <= p < q < |cl| && 0 <= t < |cl[q].posts|
      ensures !Near(dist, radius, cl[p].posts[0], cl[q].posts[t])
    {
      LiftMember(posts, cs, p, 0);
      LiftMember(posts, cs, q, 0);
      LiftMember(posts, cs, q, t);
    }
  }

  /** Each pin is centred on its members' mean and seeded greedily. */
  lemma ClusterPostsGreedy(posts: seq<Nearby<Post>>, radius: real, dist: Distance)
    ensures Centred(ClusterPosts(posts, radius, dist))
    ensures GreedyPins(ClusterPosts(posts, radius, dist), dist, radius)
  {
    ClusterIndicesPartition(posts, dist, radius);
    LiftGreedy(posts, dist, radius, ClusterIndices(posts, dist, radius));
  }

  /** `clusterPosts(posts)` as the map calls it, with the default merge radius: the pins
      partition the posts, sit at their members' means and are seeded greedily. */
  function MapPins(posts: seq<Nearby<Post>>, dist: Distance): (r: seq<Cluster>)
    ensures |r| <= |posts|
    ensures multiset(AllMembers(r)) == multiset(posts)
    ensures Centred(r) && GreedyPins(r, dist, MergeRadiusMiles)
  {
    ClusterPostsPartition(posts, MergeRadiusMiles, dist);
    ClusterPostsGreedy(posts, MergeRadiusMiles, dist);
    ClusterPosts(posts, MergeRadiusMiles, dist)
  }

  /** The sum lies between `|ms|` times any lower bound and `|ms|` times any upper bound. */
  lemma {:induction false} SumBounds(ms: seq<Nearby<Post>>, f: Nearby<Post> -> real, lo: real, hi: real)
    requires forall t :: 0 <= t < |ms| ==> lo <= f(ms[t]) <= hi
    ensures (|ms| as real) * lo <= Sum(ms, f) <= (|ms| as real) * hi
    decreases |ms|
  {
    if |ms| > 0 {
      var init, last := ms[..|ms| - 1], ms[|ms| - 1];
      SumBounds(init, f, lo, hi);
      var n := |init| as real;
      assert Sum(ms, f) == Sum(init, f) + f(last);
      assert lo <= f(last) <= hi;
      assert (|ms| as real) * lo == n * lo + lo && (|ms| as real) * hi == n * hi + hi;
    }
  }

  /** A cluster's centre lies inside any latitude/longitude box holding all its members. */
  lemma MeanWithin(ms: seq<Nearby<Post>>, f: Nearby<Post> -> real, lo: real, hi: real)
    requires |ms| > 0
    requires forall t :: 0 <= t < |ms| ==> lo <= f(ms[t]) <= hi
    ensures lo <= Mean(ms, f) <= hi
  {
    SumBounds(ms, f, lo, hi);
    var n := |ms| as real;
    assert Mean(ms, f) * n == Sum(ms, f);
  }

  /** One outer pass that starts a cluster at `i`. */
  lemma PassesSeed(posts: seq<Nearby<Post>>, dist: Distance, radius: real, i: nat, done: set<nat>, absorbed: seq<nat>)
    requires i < |posts| && i !in done
    requires absorbed == Absorbed(posts, dist, radius, i, done, 0)
    ensures Passes(posts, dist, radius, i, done)
      == [[i] + absorbed] + Passes(posts, dist, radius, i + 1, done + {i} + Elems(absorbed))
  {
  }

  /** The mean of two members is their midpoint. */
  lemma MeanTwo(a: Nearby<Post>, b: Nearby<Post>, f: Nearby<Post> -> real)
    ensures Mean([a, b], f) == (f(a) + f(b)) / 2.0
  {
    assert [a, b][..1] == [a];
    MeanOne(a, f);
    assert Sum([a, b], f) == Sum([a], f) + f(b);
  }

  /** The mean of one member is that member's value. */
  lemma MeanOne(a: Nearby<Post>, f: Nearby<Post> -> real)
    ensures Mean([a], f) == f(a)
  {
    assert [a][..0] == [];
    assert Sum([a], f) == Sum([], f) + f(a);
  }

  /** The index clusters of two posts, the second within the radius of the first. */
  lemma TwoNearIndices(a: Nearby<Post>, b: Nearby<Post>, radius: real, dist: Distance)
    requires Near(dist, radius, a, b)
    ensures ClusterIndices([a, b], dist, radius) == [[0, 1]]
  {
    var posts := [a, b];
    assert Absorbed(posts, dist, radius, 0, {}, 2) == [];
    assert Absorbed(posts, dist, radius, 0, {}, 1) == [1];
    assert Absorbed(posts, dist, radius, 0, {}, 0) == [1];
    var d1 := {} + {0} + Elems([1]);
    assert d1 == {0, 1};
    assert Passes(posts, dist, radius, 2, d1) == [];
    assert Passes(posts, dist, radius, 1, d1) == [];
    PassesSeed(posts, dist, radius, 0, {}, [1]);
    assert [0] + [1] == [0, 1];
    assert [[0, 1]] + [] == [[0, 1]];
  }

  /** Two posts, the second within the radius of the first: one pin holding both,
      centred half-way between them. */
  lemma ClusterTwoNear(a: Nearby<Post>, b: Nearby<Post>, radius: real, dist: Distance)
    requires Near(dist, radius, a, b)
    ensures ClusterPosts([a, b], radius, dist)
      == [Cluster((Lat(a) + Lat(b)) / 2.0, (Lng(a) + Lng(b)) / 2.0, [a, b], a.distance)]
  {
    var posts := [a, b];
    TwoNearIndices(a, b, radius, dist);
    assert Pick(posts, [0, 1]) == [a, b];
    MeanTwo(a, b, Lat);
    MeanTwo(a, b, Lng);
    assert Lift(posts, [[0, 1]]) == [MakeCluster(posts, [0, 1])] + Lift(posts, []);
  }

  /** The index clusters of two posts, the second outside the radius of the first. */
  lemma TwoFarIndices(a: Nearby<Post>, b: Nearby<Post>, radius: real, dist: Distance)
    requires !Near(dist, radius, a, b)
    ensures ClusterIndices([a, b], dist, radius) == [[0], [1]]
  {
    var posts := [a, b];
    assert Absorbed(posts, dist, radius, 0, {}, 2) == [];
    assert Absorbed(posts, dist, radius, 0, {}, 1) == [];
    assert Absorbed(posts, dist, radius, 0, {}, 0) == [];
    var d1 := {} + {0} + Elems([]);
    assert d1 == {0};
    assert Absorbed(posts, dist, radius, 1, d1, 2) == [];
    assert Absorbed(posts, dist, radius, 1, d1, 1) == [];
    assert Absorbed(posts, dist, radius, 1, d1, 0) == [];
    var d2 := d1 + {1} + Elems([]);
    assert d2 == {0, 1};
    assert Passes(posts, dist, radius, 2, d2) == [];
    PassesSeed(posts, dist, radius, 1, d1, []);
    assert [1] + [] == [1] && [0] + [] == [0];
    assert [[1]] + [] == [[1]];
    PassesSeed(posts, dist, radius, 0, {}, []);
    assert [[0]] + [[1]] == [[0], [1]];
  }

  /** Two posts, the second outside the radius of the first: two single-post pins,
      each centred on its post. */
  lemma ClusterTwoFar(a: Nearby<Post>, b: Nearby<Post>, radius: real, dist: Distance)
    requires !Near(dist, radius, a, b)
    ensures ClusterPosts([a, b], radius, dist)
      == [Cluster(Lat(a), Lng(a), [a], a.distance), Cluster(Lat(b), Lng(b), [b], b.distance)]
  {
    var posts := [a, b];
    TwoFarIndices(a, b, radius, dist);
    assert Pick(posts, [0]) == [a];
    assert Pick(posts, [1]) == [b];
    MeanOne(a, Lat);
    MeanOne(a, Lng);
    MeanOne(b, Lat);
    MeanOne(b, Lng);
    assert Lift(posts, [[1]]) == [MakeCluster(posts, [1])] + Lift(posts, []);
    assert Lift(posts, [[0], [1]]) == [MakeCluster(posts, [0])] + Lift(posts, [[1]]);
  }

  /** The inner scans of the chaining example with `a` first. */
  lemma ChainFromAScans(a: Nearby<Post>, b: Nearby<Post>, c: Nearby<Post>, radius: real, dist: Distance)
    requires Near(dist, radius, a, b) && !Near(dist, radius, a, c)
    ensures Absorbed([a, b, c], dist, radius, 0, {}, 0) == [1]
    ensures Absorbed([a, b, c], dist, radius, 2, {0, 1}, 0) == []
  {
    var abc := [a, b, c];
    assert Absorbed(abc, dist, radius, 0, {}, 3) == [];
    assert Absorbed(abc, dist, radius, 0, {}, 2) == [];
    assert Absorbed(abc, dist, radius, 0, {}, 1) == [1];
    assert Absorbed(abc, dist, radius, 2, {0, 1}, 3) == [];
    assert Absorbed(abc, dist, radius, 2, {0, 1}, 2) == [];
    assert Absorbed(abc, dist, radius, 2, {0, 1}, 1) == [];
  }

  /** The first run of the chaining example: with `a` first, `a` absorbs `b` but not `c`. */
  lemma ChainFromA(a: Nearby<Post>, b: Nearby<Post>, c: Nearby<Post>, radius: real, dist: Distance)
    requires Near(dist, radius, a, b) && !Near(dist, radius, a, c)
    ensures ClusterIndices([a, b, c], dist, radius) == [[0, 1], [2]]
  {
    var abc := [a, b, c];
    ChainFromAScans(a, b, c, radius, dist);
    var d1 := {} + {0} + Elems([1]);
    assert d1 == {0, 1};
    var d2 := d1 + {2} + Elems([]);
    assert d2 == {0, 1, 2};
    assert Passes(abc, dist, radius, 3, d2) == [];
    PassesSeed(abc, dist, radius, 2, d1, []);
    assert [2] + [] == [2];
    assert [[2]] + [] == [[2]];
    assert Passes(abc, dist, radius, 1, d1) == [[2]];
    PassesSeed(abc, dist, radius, 0, {}, [1]);
    assert [0] + [1] == [0, 1];
    assert [[0, 1]] + [[2]] == [[0, 1], [2]];
  }

  /** The inner scan of the chaining example with `b` first. */
  lemma ChainFromBScan(a: Nearby<Post>, b: Nearby<Post>, c: Nearby<Post>, radius: real, dist: Distance)
    requires Near(dist, radius, b, a) && Near(dist, radius, b, c)
    ensures Absorbed([b, a, c], dist, radius, 0, {}, 0) == [1, 2]
  {
    var bac := [b, a, c];
    assert Absorbed(bac, dist, radius, 0, {}, 3) == [];
    assert Absorbed(bac, dist, radius, 0, {}, 2) == [2];
    assert Absorbed(bac, dist, radius, 0, {}, 1) == [1, 2];
  }

  /** The second run of the chaining example: with `b` first, `b` absorbs both others. */
  lemma ChainFromB(a: Nearby<Post>, b: Nearby<Post>, c: Nearby<Post>, radius: real, dist: Distance)
    requires Near(dist, radius, b, a) && Near(dist, radius, b, c)
    ensures ClusterIndices([b, a, c], dist, radius) == [[0, 1, 2]]
  {
    var bac := [b, a, c];
    ChainFromBScan(a, b, c, radius, dist);
    var d1 := {} + {0} + Elems([1, 2]);
    assert d1 == {0, 1, 2};
    assert Passes(bac, dist, radius, 3, d1) == [];
    assert Passes(bac, dist, radius, 2, d1) == [];
    assert Passes(bac, dist, radius, 1, d1) == [];
    PassesSeed(bac, dist, radius, 0, {}, [1, 2]);
    assert [0] + [1, 2] == [0, 1, 2];
    assert [[0, 1, 2]] + [] == [[0, 1, 2]];
  }

  /** Order dependence: with `b` near `a` and `c` near `b` but not near `a`, the order
      a, b, c gives the pins {a, b} and {c}, while the order b, a, c gives one pin {b, a, c}. */
  lemma ClusterChaining(a: Nearby<Post>, b: Nearby<Post>, c: Nearby<Post>, radius: real, dist: Distance)
    requires Near(dist, radius, a, b) && !Near(dist, radius, a, c)
    requires Near(dist, radius, b, a) && Near(dist, radius, b, c)
    ensures |ClusterPosts([a, b, c], radius, dist)| == 2
    ensures ClusterPosts([a, b, c], radius, dist)[0].posts == [a, b]
    ensures ClusterPosts([a, b, c], radius, dist)[1].posts == [c]
    ensures |ClusterPosts([b, a, c], radius, dist)| == 1
    ensures ClusterPosts([b, a, c], radius, dist)[0].posts == [b, a, c]
  {
    ChainFromA(a, b, c, radius, dist);
    ChainFromB(a, b, c, radius, dist);
    assert Pick([a, b, c], [0, 1]) == [a, b];
    assert Pick([a, b, c], [2]) == [c];
    assert Pick([b, a, c], [0, 1, 2]) == [b, a, c];
  }
}

=== FILE: createpost.dfy ===
/** The post composer: its draft, the submit guard, the record it creates and the reset
    that follows. The image upload is a parameter: it maps a chosen file to its URL. */
module CreatePost {
  import opened Optional
  import opened Text
  import opened Geo
  import opened Entities
  import Interests

  /** A chosen image file, known to the model only by an opaque handle. */
  type File = string

  /** The composer's state: text, category, chosen image and its preview. */
  datatype Draft = Draft(content: string, category: string, imageFile: Option<File>, imagePreview: Option<string>)

  /** A fresh composer. */
  const InitialDraft: Draft := Draft("", Interests.DefaultCategory, None, None)

  /** The record handed to `onPostCreated`. */
  datatype NewPost = NewPost(
    content: string,
    imageUrl: Option<string>,
    at: Coord,
    likes: seq<string>,
    category: string,
    authorName: Option<string>,
    authorEmail: string,
    authorAvatar: Option<string>)

  /** What `handleSubmit` does: nothing, a `TypeError` when there is no current user
      to read the author fields from, or a created post and a reset draft. */
  datatype Submission = Ignored | Throws | Created(post: NewPost, draft: Draft)

  /** `handleSubmit`. */
  function Submit(d: Draft, location: Option<Coord>, user: Option<User>, upload: File -> string): (r: Submission)
    ensures r.Ignored? <==> Blank(d.content) || location.None?
    ensures r.Throws? <==> !Blank(d.content) && location.Some? && user.None?
    ensures r.Created? ==>
      && r.post.content == Trim(d.content) && r.post.content != []
      && r.post.likes == []
      && r.post.at == location.value
      && r.post.category == d.category
      && r.post.authorName == user.value.fullName
      && r.post.authorEmail == user.value.email
      && r.post.authorAvatar == user.value.avatarUrl
    ensures r.Created? ==> (r.post.imageUrl.None? <==> d.imageFile.None?)
    ensures r.Created? ==> d.imageFile.Some? ==> r.post.imageUrl == Some(upload(d.imageFile.value))
    ensures r.Created? ==> r.draft == InitialDraft
  {
    if Blank(d.content) || location.None? then Ignored
    else if user.None? then Throws
    else
      var imageUrl := if d.imageFile.Some? then Some(upload(d.imageFile.value)) else None;
      var u := user.value;
      Created(NewPost(Trim(d.content), imageUrl, location.value, [], d.category, u.fullName, u.email, u.avatarUrl),
              InitialDraft)
  }

  /** A submitted draft leaves a fresh composer whose next submit is ignored. */
  lemma ResetAfterSubmit(d: Draft, location: Option<Coord>, user: Option<User>, upload: File -> string)
    requires Submit(d, location, user, upload).Created?
    ensures Submit(Submit(d, location, user, upload).draft, location, user, upload).Ignored?
    ensures Submit(d, location, user, upload).draft.category == "casual_chats"
  {
  }
}

=== FILE: entities.dfy ===
/** The records the hosted store holds, as the client reads them. Absent fields are `None`. */
module Entities {
  import opened Optional
  import opened Geo

  /** A post; `createdDate` is the store's creation time in milliseconds. */
  datatype Post = Post(
    id: string,
    content: string,
    imageUrl: Option<string>,
    at: Coord,
    category: string,
    createdDate: int,
    likes: Option<seq<string>>,
    authorName: Option<string>,
    authorEmail: string,
    authorAvatar: Option<string>)

  /** A chat message of one channel. */
  datatype Message = Message(
    id: string,
    content: string,
    at: Coord,
    senderName: Option<string>,
    senderEmail: string,
    senderAvatar: Option<string>,
    channel: string,
    createdDate: int)

  /** A user profile, including the three email lists that encode friendships. */
  datatype User = User(
    id: string,
    email: string,
    username: Option<string>,
    fullName: Option<string>,
    bio: Option<string>,
    avatarUrl: Option<string>,
    interests: Option<seq<string>>,
    friends: Option<seq<string>>,
    sentRequests: Option<seq<string>>,
    receivedRequests: Option<seq<string>>,
    onboardingCompleted: bool,
    latitude: Option<real>,
    longitude: Option<real>)

  function PostAt(p: Post): Coord { p.at }

  function MessageAt(m: Message): Coord { m.at }

  function PostCreated(n: Nearby<Post>): int { n.item.createdDate }

  function MessageCreated(n: Nearby<Message>): int { n.item.createdDate }
}

=== FILE: feed.dfy ===
/** The feed page's `loadPosts`: `posts` keeps the full store answer; the list and the map
    both show the posts within 5 miles, newest first, optionally narrowed to one category. */
module Feed {
  import opened Optional
  import opened Seqs
  import opened Geo
  import opened Entities

  /** `posts` (the unfiltered store answer) and `filteredPosts`. */
  datatype FeedState = FeedState(posts: seq<Post>, filtered: seq<Nearby<Post>>)

  /** The category test; an absent or empty filter keeps everything. */
  predicate InCategory(filter: Option<string>, n: Nearby<Post>)
  {
    filter.None? || filter.value == "" || n.item.category == filter.value
  }

  /** `loadPosts` over the store's post list `stored` (newest first). */
  function LoadPosts(location: Option<Coord>, filter: Option<string>, stored: seq<Post>, dist: Distance): (r: Option<FeedState>)
    ensures r.Some? <==> location.Some?
    ensures r.Some? ==> r.value.posts == stored
    ensures r.Some? ==> SortedDesc(r.value.filtered, PostCreated)
    ensures r.Some? ==> forall i :: 0 <= i < |r.value.filtered| ==>
      r.value.filtered[i].distance <= RadiusMiles && InCategory(filter, r.value.filtered[i])
    ensures r.Some? ==> (forall n :: multiset(r.value.filtered)[n] ==
                          if InRadius(n) && InCategory(filter, n)
                          then multiset(Annotate(location.value, stored, PostAt, dist))[n] else 0)
  {
    if location.None? then None
    else
      var annotated := Annotate(location.value, stored, PostAt, dist);
      var sorted := SortDesc(Filter(annotated, InRadius), PostCreated);
      if filter.Some? && filter.value != "" then
        var keep := (n: Nearby<Post>) => InCategory(filter, n);
        FilterSortedDesc(sorted, keep, PostCreated);
        Some(FeedState(stored, Filter(sorted, keep)))
      else
        Some(FeedState(stored, sorted))
  }

  /** A post is listed exactly when it is stored, within 5 miles and of the chosen
      category; it carries its own distance. */
  lemma LoadPostsMembership(origin: Coord, filter: Option<string>, stored: seq<Post>, dist: Distance, n: Nearby<Post>)
    ensures n in LoadPosts(Some(origin), filter, stored, dist).value.filtered <==>
      n.item in stored && n.distance == dist(origin, n.item.at) && n.distance <= RadiusMiles && InCategory(filter, n)
  {
    var r := LoadPosts(Some(origin), filter, stored, dist).value.filtered;
    var m: multiset<Nearby<Post>> := multiset(r);
    assert n in r <==> m[n] > 0;
    AnnotateMembership(origin, stored, PostAt, dist, n);
    var a := Annotate(origin, stored, PostAt, dist);
    assert n in a <==> multiset(a)[n] > 0;
  }

  /** Without a filter no post within range is lost to the category test. */
  lemma NoFilterKeepsAll(origin: Coord, stored: seq<Post>, dist: Distance)
    ensures multiset(LoadPosts(Some(origin), None, stored, dist).value.filtered)
      == multiset(Filter(Annotate(origin, stored, PostAt, dist), InRadius))
  {
  }

  /** The store already answers newest first, and then the sort changes nothing: the list
      is the store's order with the far posts taken out. */
  lemma {:induction false} StoreOrderKept(origin: Coord, stored: seq<Post>, dist: Distance)
    requires forall i, j :: 0 <= i < j < |stored| ==> stored[j].createdDate <= stored[i].createdDate
    ensures LoadPosts(Some(origin), None, stored, dist).value.filtered
      == Filter(Annotate(origin, stored, PostAt, dist), InRadius)
  {
    var annotated := Annotate(origin, stored, PostAt, dist);
    assert SortedDesc(annotated, PostCreated);
    FilterSortedDesc(annotated, InRadius, PostCreated);
    SortDescSorted(Filter(annotated, InRadius), PostCreated);
  }
}

=== FILE: friends.dfy ===
/** The friends page. A friendship lives in three email lists on each user record:
    `friends`, `friend_requests_sent` and `friend_requests_received`. Every action
    rewrites some of these lists on the viewer's record and on the other user's record. */
module Friends {
  import opened Optional
  import opened Seqs
  import opened Text
  import opened Entities

  /** `list?.includes(email)`: an absent list contains nothing. */
  predicate Lists(list: Option<seq<string>>, email: string)
  {
    list.Some? && email in list.value
  }

  /** The two records an action writes, or the `TypeError` the page raises when it calls
      `.filter` on an absent list. */
  datatype Outcome = Updated(me: User, other: User) | Throws

  /** `handleSendFriendRequest`: the target's email is appended to the viewer's sent
      list and the viewer's email to the target's received list, without any duplicate
      check. */
  function SendRequest(me: User, target: User): (r: Outcome)
    ensures r.Updated?
    ensures r.me.sentRequests == Some(OrEmpty(me.sentRequests) + [target.email])
    ensures r.other.receivedRequests == Some(OrEmpty(target.receivedRequests) + [me.email])
    ensures r.me == me.(sentRequests := r.me.sentRequests)
    ensures r.other == target.(receivedRequests := r.other.receivedRequests)
  {
    Updated(me.(sentRequests := Some(OrEmpty(me.sentRequests) + [target.email])),
            target.(receivedRequests := Some(OrEmpty(target.receivedRequests) + [me.email])))
  }

  /** `handleAcceptFriendRequest`: each becomes the other's friend, the request leaves the
      viewer's received list and the requester's sent list. The viewer's received list
      is filtered without a fallback, so an absent one throws. */
  function Accept(me: User, requester: User): (r: Outcome)
    ensures r.Throws? <==> me.receivedRequests.None?
    ensures r.Updated? ==>
      && r.me.friends == Some(OrEmpty(me.friends) + [requester.email])
      && r.other.friends == Some(OrEmpty(requester.friends) + [me.email])
      && !Lists(r.me.receivedRequests, requester.email)
      && !Lists(r.other.sentRequests, me.email)
      && r.me.receivedRequests == Some(RemoveAll(me.receivedRequests.value, requester.email))
      && r.other.sentRequests == Some(RemoveAll(OrEmpty(requester.sentRequests), me.email))
      && r.me == me.(friends := r.me.friends, receivedRequests := r.me.receivedRequests)
      && r.other == requester.(friends := r.other.friends, sentRequests := r.other.sentRequests)
  {
    if me.receivedRequests.None? then Throws
    else
      Updated(
        me.(friends := Some(OrEmpty(me.friends) + [requester.email]),
            receivedRequests := Some(RemoveAll(me.receivedRequests.value, requester.email))),
        requester.(friends := Some(OrEmpty(requester.friends) + [me.email]),
                   sentRequests := Some(RemoveAll(OrEmpty(requester.sentRequests), me.email))))
  }

  /** `handleRejectFriendRequest`: the same request entries as accepting are removed;
      the friends lists stay as they are. */
  function Reject(me: User, requester: User): (r: Outcome)
    ensures r.Throws? <==> me.receivedRequests.None?
    ensures r.Updated? ==>
      && !Lists(r.me.receivedRequests, requester.email)
      && !Lists(r.other.sentRequests, me.email)
      && r.me.receivedRequests == Some(RemoveAll(me.receivedRequests.value, requester.email))
      && r.other.sentRequests == Some(RemoveAll(OrEmpty(requester.sentRequests), me.email))
      && r.me == me.(receivedRequests := r.me.receivedRequests)
      && r.other == requester.(sentRequests := r.other.sentRequests)
  {
    if me.receivedRequests.None? then Throws
    else
      Updated(
        me.(receivedRequests := Some(RemoveAll(me.receivedRequests.value, requester.email))),
        requester.(sentRequests := Some(RemoveAll(OrEmpty(requester.sentRequests), me.email))))
  }

  /** `handleRemoveFriend`: each party disappears from the other's friends list, nothing
      else changes. The viewer's list is filtered without a fallback. */
  function Unfriend(me: User, friend: User): (r: Outcome)
    ensures r.Throws? <==> me.friends.None?
    ensures r.Updated? ==>
      && !Lists(r.me.friends, friend.email)
      && !Lists(r.other.friends, me.email)
      && r.me.friends == Some(RemoveAll(me.friends.value, friend.email))
      && r.other.friends == Some(RemoveAll(OrEmpty(friend.friends), me.email))
      && r.me == me.(friends := r.me.friends)
      && r.other == friend.(friends := r.other.friends)
  {
    if me.friends.None? then Throws
    else
      Updated(me.(friends := Some(RemoveAll(me.friends.value, friend.email))),
              friend.(friends := Some(RemoveAll(OrEmpty(friend.friends), me.email))))
  }

  /** The relationship control shown next to a user. */
  datatype Badge = AlreadyFriends | Pending | RespondInRequests | AddFriend

  /** `getButtonForUser`: friend first, then a sent request, then a received one. */
  function BadgeFor(me: User, u: User): (b: Badge)
    ensures b == AlreadyFriends <==> Lists(me.friends, u.email)
    ensures b == Pending <==> !Lists(me.friends, u.email) && Lists(me.sentRequests, u.email)
    ensures b == RespondInRequests <==>
      !Lists(me.friends, u.email) && !Lists(me.sentRequests, u.email) && Lists(me.receivedRequests, u.email)
  {
    if Lists(me.friends, u.email) then AlreadyFriends
    else if Lists(me.sentRequests, u.email) then Pending
    else if Lists(me.receivedRequests, u.email) then RespondInRequests
    else AddFriend
  }

  /** After sending a request the target shows as pending, unless already a friend. */
  lemma BadgeAfterSend(me: User, target: User)
    ensures BadgeFor(SendRequest(me, target).me, target) ==
      if Lists(me.friends, target.email) then AlreadyFriends else Pending
  {
  }

  /** After accepting, the requester shows as a friend. */
  lemma BadgeAfterAccept(me: User, requester: User)
    requires me.receivedRequests.Some?
    ensures BadgeFor(Accept(me, requester).me, requester) == AlreadyFriends
  {
  }

  /** After rejecting, the requester is no longer waiting for an answer. */
  lemma BadgeAfterReject(me: User, requester: User)
    requires me.receivedRequests.Some?
    ensures BadgeFor(Reject(me, requester).me, requester) != RespondInRequests
  {
  }

  /** After removing a friend, they no longer show as one. */
  lemma BadgeAfterUnfriend(me: User, friend: User)
    requires me.friends.Some?
    ensures BadgeFor(Unfriend(me, friend).me, friend) != AlreadyFriends
  {
  }

  /** Accepting differs from rejecting only in the two friends lists. */
  lemma AcceptIsRejectPlusFriends(me: User, requester: User)
    requires me.receivedRequests.Some?
    ensures Accept(me, requester).me == Reject(me, requester).me.(friends := Accept(me, requester).me.friends)
    ensures Accept(me, requester).other == Reject(me, requester).other.(friends := Accept(me, requester).other.friends)
  {
  }

  /** `handleSearch`'s filter: a username that contains the query, ignoring case, and
      not the viewer. The query is the untrimmed one. */
  predicate Matches(me: User, query: string, u: User)
  {
    u.username.Some? && Contains(Lower(u.username.value), Lower(query)) && u.email != me.email
  }

  /** `handleSearch`: a blank query does nothing; otherwise the matching users in list order. */
  function Search(me: User, query: string, users: seq<User>): (r: Option<seq<User>>)
    ensures r.None? <==> Blank(query)
    ensures r.Some? ==> forall u :: u in r.value <==> u in users && Matches(me, query, u)
    ensures r.Some? ==> forall i :: 0 <= i < |r.value| ==> r.value[i].email != me.email
    ensures r.Some? ==> forall u :: multiset(r.value)[u] == if Matches(me, query, u) then multiset(users)[u] else 0
  {
    if Blank(query) then None
    else
      var keep := (u: User) => Matches(me, query, u);
      var found := Filter(users, keep);
      assert forall u :: u in found <==> u in users && Matches(me, query, u) by {
        forall u
          ensures u in found <==> u in users && Matches(me, query, u)
        {
          FilterMembership(users, keep, u);
        }
      }
      Some(found)
  }

  /** The search works piecewise over the user list, so it keeps the list's order. */
  lemma SearchAppend(me: User, query: string, a: seq<User>, b: seq<User>)
    requires !Blank(query)
    ensures Search(me, query, a + b).value == Search(me, query, a).value + Search(me, query, b).value
  {
    FilterAppend(a, b, (u: User) => Matches(me, query, u));
  }

  /** A user with only an email and, optionally, a username. */
  function Account(email: string, username: Option<string>): User
  {
    User("", email, username, None, None, None, None, None, None, None, false, None, None)
  }

  /** The string facts behind the padded-query example. */
  lemma PaddedQuery()
    ensures Trim(" ab") == "ab" && !Blank(" ab")
    ensures Lower(" ab") == " ab" && Lower("ab") == "ab"
    ensures Contains("ab", "ab") && !Contains("ab", " ab")
  {
    assert Lower("ab") == "ab";
    assert Lower(" ab") == " ab";
    assert !Contains("ab", " ab") by {
      assert !(" ab" <= "ab");
      assert "ab"[1..] == "b";
      assert "b"[1..] == "";
    }
    assert Trim(" ab") == "ab" by {
      assert LeadingSpace(" ab") == 1 by {
        assert " ab"[1..] == "ab";
        assert LeadingSpace("ab") == 0;
      }
      assert TrailingSpace("ab") == 2;
    }
    assert "ab" <= "ab";
  }

  /** The blank-query guard trims the query but the filter does not, so a query typed
      with a leading space finds nothing even when a username equals its trimmed text. */
  lemma SearchKeepsSpaces()
    ensures var me, u := Account("me@x", None), Account("ab@x", Some("ab"));
      && Matches(me, Trim(" ab"), u)
      && Search(me, " ab", [u]) == Some([])
  {
    var me, u := Account("me@x", None), Account("ab@x", Some("ab"));
    PaddedQuery();
    assert !Matches(me, " ab", u);
    FilterMembership([u], (v: User) => Matches(me, " ab", v), u);
  }

  /** `handleSearch` with the query trimmed before matching, as its guard suggests:
      surrounding whitespace never changes the results. */
  function SearchTrimmed(me: User, query: string, users: seq<User>): (r: Option<seq<User>>)
    ensures r.None? <==> Blank(query)
    ensures r.Some? ==> forall u :: u in r.value <==> u in users && Matches(me, Trim(query), u)
  {
    if Blank(query) then None
    else
      var q := Trim(query);
      var keep := (u: User) => Matches(me, q, u);
      var found := Filter(users, keep);
      assert forall u :: u in found <==> u in users && Matches(me, q, u) by {
        forall u
          ensures u in found <==> u in users && Matches(me, q, u)
        {
          FilterMembership(users, keep, u);
        }
      }
      Some(found)
  }

  /** Searching for a query and for its trimmed form gives the same answer. */
  lemma SearchTrimmedIgnoresPadding(me: User, query: string, users: seq<User>)
    ensures SearchTrimmed(me, query, users) == SearchTrimmed(me, Trim(query), users)
  {
    TrimIdempotent(query);
    var r := Trim(query);
    if r != [] {
      assert !IsSpace(r[0]);
    }
  }

  /** The corrected search finds the user that the search as written misses. */
  lemma SearchTrimmedFindsPadded()
    ensures var me, u := Account("me@x", None), Account("ab@x", Some("ab"));
      SearchTrimmed(me, " ab", [u]) == Some([u])
  {
    var me, u := Account("me@x", None), Account("ab@x", Some("ab"));
    PaddedQuery();
    assert Matches(me, "ab", u);
    FilterAll([u], (v: User) => Matches(me, "ab", v));
  }

  /** `loadFriends`: the users in the viewer's friends list, other than the viewer. */
  function FriendsList(me: User, users: seq<User>): (r: seq<User>)
    ensures forall u :: u in r <==> u in users && Lists(me.friends, u.email) && u.email != me.email
  {
    var keep := (u: User) => Lists(me.friends, u.email) && u.email != me.email;
    var r := Filter(users, keep);
    assert forall u :: u in r <==> u in users && keep(u) by {
      forall u
        ensures u in r <==> u in users && keep(u)
      {
        FilterMembership(users, keep, u);
      }
    }
    r
  }

  /** `loadFriendRequests`: the users in the viewer's received list. */
  function RequestsList(me: User, users: seq<User>): (r: seq<User>)
    ensures forall u :: u in r <==> u in users && Lists(me.receivedRequests, u.email)
  {
    var keep := (u: User) => Lists(me.receivedRequests, u.email);
    var r := Filter(users, keep);
    assert forall u :: u in r <==> u in users && keep(u) by {
      forall u
        ensures u in r <==> u in users && keep(u)
      {
        FilterMembership(users, keep, u);
      }
    }
    r
  }

  /** Accepting moves the requester from the viewer's requests to the viewer's friends. */
  lemma AcceptMovesRequester(me: User, requester: User, users: seq<User>)
    requires me.receivedRequests.Some?
    requires requester in users && requester.email != me.email
    ensures requester in FriendsList(Accept(me, requester).me, users)
    ensures requester !in RequestsList(Accept(me, requester).me, users)
  {
  }
}

=== FILE: geo.dfy ===
/** Coordinates, the distance between them and the proximity annotation shared by the
    feed, the chat and the summary pages. */
module Geo {
  import Seqs

  /** A latitude/longitude pair in degrees. */
  datatype Coord = Coord(latitude: real, longitude: real)

  /** The great-circle distance in miles. The haversine formula itself is not modelled:
      every operation takes the distance as a parameter. */
  type Distance = (Coord, Coord) -> real

  /** The proximity cutoff applied to posts, messages and nearby users. */
  const RadiusMiles: real := 5.0

  /** The default merge radius of the map's clustering. */
  const MergeRadiusMiles: real := 0.1

  /** `{...record, distance}`: a record annotated with its distance from the viewer. */
  datatype Nearby<T> = Nearby(item: T, distance: real)

  /** `records.map(r => ({...r, distance: dist(origin, at(r))}))`. */
  function Annotate<T>(origin: Coord, records: seq<T>, at: T -> Coord, dist: Distance): (r: seq<Nearby<T>>)
    ensures |r| == |records|
    ensures forall i :: 0 <= i < |r| ==> r[i].item == records[i] && r[i].distance == dist(origin, at(records[i]))
  {
    Seqs.Map((x: T) => Nearby(x, dist(origin, at(x))), records)
  }

  /** An annotated record is one of the records, tagged with its own distance. */
  lemma AnnotateMembership<T>(origin: Coord, records: seq<T>, at: T -> Coord, dist: Distance, n: Nearby<T>)
    ensures n in Annotate(origin, records, at, dist) <==> n.item in records && n.distance == dist(origin, at(n.item))
  {
    var r := Annotate(origin, records, at, dist);
    if n.item in records && n.distance == dist(origin, at(n.item)) {
      var k :| 0 <= k < |records| && records[k] == n.item;
      assert r[k] == n;
    }
  }

  /** The `distance <= RADIUS_MILES` test. */
  predicate InRadius<T>(n: Nearby<T>)
  {
    n.distance <= RadiusMiles
  }
}

=== FILE: indexing.dfy ===
/** Index sequences: picking elements by position, and the fact that a duplicate-free
    list of every position picks a permutation of the original list. */
module Indexing {
  import opened Seqs

  /** Every index is a position of a list of length `n`. */
  predicate Below(idx: seq<nat>, n: nat)
  {
    forall t :: 0 <= t < |idx| ==> idx[t] < n
  }

  /** `0, 1, ..., n - 1`. */
  function Range(n: nat): (r: seq<nat>)
    ensures |r| == n
    ensures forall k :: 0 <= k < n ==> r[k] == k
  {
    seq(n, k => k)
  }

  /** The elements of `s` at the positions `idx`, in that order. */
  function Pick<T>(s: seq<T>, idx: seq<nat>): (r: seq<T>)
    requires Below(idx, |s|)
    ensures |r| == |idx|
    ensures forall t :: 0 <= t < |idx| ==> r[t] == s[idx[t]]
  {
    if |idx| == 0 then [] else [s[idx[0]]] + Pick(s, idx[1..])
  }

  lemma PickAppend<T>(s: seq<T>, a: seq<nat>, b: seq<nat>)
    requires Below(a, |s|) && Below(b, |s|)
    ensures Below(a + b, |s|)
    ensures Pick(s, a + b) == Pick(s, a) + Pick(s, b)
  {
    assert Below(a + b, |s|);
  }

  /** Taking the same element out of two lists with equal multisets leaves equal multisets. */
  lemma RemoveMatching(a: seq<nat>, b: seq<nat>, j: nat)
    requires |a| > 0 && j < |b| && b[j] == a[0]
    requires multiset(a) == multiset(b)
    ensures multiset(a[1..]) == multiset(b[..j] + b[j + 1..])
  {
    assert a == [a[0]] + a[1..];
    assert b == b[..j] + [b[j]] + b[j + 1..];
    var mr: multiset<nat>, mb: multiset<nat> := multiset(a[1..]), multiset(b[..j] + b[j + 1..]);
    var ma: multiset<nat>, mbb: multiset<nat> := multiset(a), multiset(b);
    forall y: nat
      ensures mr[y] == mb[y]
    {
      assert ma[y] == mbb[y];
    }
    assert mr == mb;
  }

  /** Picking by a concatenation, counted as a multiset. */
  lemma PickMultisetAppend<T>(s: seq<T>, a: seq<nat>, b: seq<nat>)
    requires Below(a, |s|) && Below(b, |s|)
    ensures Below(a + b, |s|)
    ensures multiset(Pick(s, a + b)) == multiset(Pick(s, a)) + multiset(Pick(s, b))
  {
    PickAppend(s, a, b);
  }

  /** Picking around one position: its element plus the picks on either side. */
  lemma PickAround<T>(s: seq<T>, b: seq<nat>, j: nat)
    requires Below(b, |s|) && j < |b|
    ensures Below(b[..j] + b[j + 1..], |s|)
    ensures multiset(Pick(s, b)) == multiset(Pick(s, b[..j] + b[j + 1..])) + multiset{s[b[j]]}
  {
    var pre, mid, post := b[..j], [b[j]], b[j + 1..];
    assert b == pre + (mid + post);
    PickMultisetAppend(s, mid, post);
    PickMultisetAppend(s, pre, mid + post);
    PickMultisetAppend(s, pre, post);
    assert Pick(s, mid) == [s[b[j]]];
  }

  /** An element of `a[0]`'s multiset has a position in any list with the same multiset. */
  lemma FindMatching(a: seq<nat>, b: seq<nat>) returns (j: nat)
    requires |a| > 0 && multiset(a) == multiset(b)
    ensures j < |b| && b[j] == a[0]
  {
    assert a[0] in multiset(b);
    j :| 0 <= j < |b| && b[j] == a[0];
  }

  /** The first picked element, split off. */
  lemma PickHead<T>(s: seq<T>, a: seq<nat>)
    requires Below(a, |s|) && |a| > 0
    ensures Below(a[1..], |s|)
    ensures multiset(Pick(s, a)) == multiset(Pick(s, a[1..])) + multiset{s[a[0]]}
  {
    assert Below(a[1..], |s|) by {
      forall t | 0 <= t < |a[1..]|
        ensures a[1..][t] < |s|
      {
        assert a[1..][t] == a[t + 1];
      }
    }
    var head, rest := [s[a[0]]], Pick(s, a[1..]);
    assert Pick(s, a) == head + rest;
    var mh: multiset<T>, mr: multiset<T> := multiset(head), multiset(rest);
    assert multiset(head + rest) == mh + mr;
  }

  /** Picking by two index lists with equal multisets gives equal multisets. */
  lemma {:induction false} PickPermutation<T>(s: seq<T>, a: seq<nat>, b: seq<nat>)
    requires Below(a, |s|) && Below(b, |s|)
    requires multiset(a) == multiset(b)
    ensures multiset(Pick(s, a)) == multiset(Pick(s, b))
    decreases |a|
  {
    if |a| == 0 {
      assert |multiset(b)| == 0;
      assert b == [];
    } else {
      var j := FindMatching(a, b);
      var rest := b[..j] + b[j + 1..];
      RemoveMatching(a, b, j);
      PickAround(s, b, j);
      PickHead(s, a);
      PickPermutation(s, a[1..], rest);
    }
  }

  /** A duplicate-free list counts each of its elements once. */
  lemma {:induction false} DistinctCount(s: seq<nat>, x: nat)
    requires Distinct(s)
    ensures multiset(s)[x] == if x in s then 1 else 0
    decreases |s|
  {
    if |s| > 0 {
      assert s == [s[0]] + s[1..];
      DistinctCount(s[1..], x);
    }
  }

  /** Concatenating two duplicate-free, disjoint lists keeps them duplicate-free. */
  lemma DistinctAppend(a: seq<nat>, b: seq<nat>)
    requires Distinct(a) && Distinct(b)
    requires forall x :: x in a ==> x !in b
    ensures Distinct(a + b)
  {
    forall s, t | 0 <= s < t < |a + b|
      ensures (a + b)[s] != (a + b)[t]
    {
      if s < |a| && t >= |a| {
        assert (a + b)[s] in a && (a + b)[t] in b;
      }
    }
  }

  /** A duplicate-free list of positions below `n` that mentions every position below `n`
      is a permutation of `Range(n)`. */
  lemma DistinctCover(idx: seq<nat>, n: nat)
    requires Distinct(idx) && Below(idx, n)
    requires forall k :: 0 <= k < n ==> k in idx
    ensures multiset(idx) == multiset(Range(n))
  {
    var all := Range(n);
    var mi: multiset<nat> := multiset(idx);
    var ma: multiset<nat> := multiset(all);
    forall x: nat
      ensures mi[x] == ma[x]
    {
      DistinctCount(idx, x);
      DistinctCount(all, x);
      if x < n {
        assert all[x] == x;
      }
      if x in idx {
        var t :| 0 <= t < |idx| && idx[t] == x;
      }
    }
    assert mi == ma;
  }

  /** Picking every position in order gives back the list. */
  lemma PickRange<T>(s: seq<T>)
    ensures Pick(s, Range(|s|)) == s
  {
  }
}

=== FILE: interests.dfy ===
/** The fixed interest table. Its ids double as chat channel ids and post categories. */
module Interests {

  datatype Interest = Interest(id: string, name: string)

  const Categories: seq<Interest> := [
    Interest("lost_found_pets", "Lost & Found Pets"),
    Interest("safety_crime", "Safety & Crime Alerts"),
    Interest("weather_emergencies", "Weather & Emergencies"),
    Interest("local_services", "Local Services"),
    Interest("events_meetups", "Events & Meetups"),
    Interest("garage_sales", "Garage Sales"),
    Interest("city_updates", "City Updates"),
    Interest("general_news", "General News"),
    Interest("casual_chats", "Casual Chats")
  ]

  /** The category a new post starts with. */
  const DefaultCategory: string := "casual_chats"

  /** `INTEREST_CATEGORIES.find((c) => c.id === category)?.label || category`, over the
      table `table`. The source's `label` field is `name` here, since `label` is a Dafny
      keyword. */
  function LabelIn(table: seq<Interest>, id: string): (r: string)
    ensures (forall k :: 0 <= k < |table| ==> table[k].id != id) ==> r == id
    ensures forall k :: 0 <= k < |table| && table[k].id == id && (forall e :: 0 <= e < k ==> table[e].id != id) && table[k].name != "" ==> r == table[k].name
  {
    if |table| == 0 then id
    else if table[0].id == id then (if table[0].name != "" then table[0].name else id)
    else LabelIn(table[1..], id)
  }

  /** The display label of a category id: the table's label for a known id, the raw id
      for any other string. */
  function Label(id: string): (r: string)
    ensures forall k :: 0 <= k < |Categories| && Categories[k].id == id ==> r == Categories[k].name
    ensures (forall k :: 0 <= k < |Categories| ==> Categories[k].id != id) ==> r == id
  {
    CategoryIdsDistinct();
    assert forall k :: 0 <= k < |Categories| ==> Categories[k].name != "";
    LabelInTable(Categories, id);
    LabelIn(Categories, id)
  }

  /** No id occurs twice in the table. */
  predicate DistinctIds(table: seq<Interest>)
  {
    forall a, b :: 0 <= a < b < |table| ==> table[a].id != table[b].id
  }

  /** In a table of distinct ids with non-empty labels, every id shows its own label and
      any other string shows itself. */
  lemma {:induction false} LabelInTable(table: seq<Interest>, id: string)
    requires DistinctIds(table)
    requires forall k :: 0 <= k < |table| ==> table[k].name != ""
    ensures forall k :: 0 <= k < |table| && table[k].id == id ==> LabelIn(table, id) == table[k].name
    ensures (forall k :: 0 <= k < |table| ==> table[k].id != id) ==> LabelIn(table, id) == id
  {
    forall k | 0 <= k < |table| && table[k].id == id
      ensures LabelIn(table, id) == table[k].name
    {
      assert forall e :: 0 <= e < k ==> table[e].id != id;
    }
  }

  /** The first three letters of each category id, which already tell them apart. */
  const IdPrefixes: seq<string> := ["los", "saf", "wea", "loc", "eve", "gar", "cit", "gen", "cas"]

  /** The nine category ids are pairwise different. */
  lemma CategoryIdsDistinct()
    ensures DistinctIds(Categories)
  {
    assert forall k :: 0 <= k < |Categories| ==> |Categories[k].id| >= 3 && Categories[k].id[..3] == IdPrefixes[k];
    assert forall a, b :: 0 <= a < b < |IdPrefixes| ==> IdPrefixes[a] != IdPrefixes[b];
  }

  /** The category table has distinct ids and non-empty labels, and `casual_chats` is one
      of its ids. */
  lemma CategoriesWellFormed()
    ensures DistinctIds(Categories)
    ensures forall k :: 0 <= k < |Categories| ==> Categories[k].name != ""
    ensures Label(DefaultCategory) == "Casual Chats"
  {
    CategoryIdsDistinct();
    LabelInTable(Categories, DefaultCategory);
    assert Categories[8].id == DefaultCategory;
  }
}

=== FILE: likes.dfy ===
/** Liking a post: the heart button on a post card and the like action in the map's
    cluster view. Both compute the post's new list of liker emails and hand it to the
    store together with the post id. */
module Likes {
  import opened Optional
  import opened Seqs
  import opened Entities

  /** `post.likes?.includes(email)`: an absent list likes nothing. */
  predicate IsLiked(likes: Option<seq<string>>, email: string)
  {
    likes.Some? && email in likes.value
  }

  /** `post.likes?.length || 0`. */
  function LikeCount(likes: Option<seq<string>>): (n: nat)
    ensures likes.None? ==> n == 0
    ensures likes.Some? ==> n == |likes.value|
    ensures n == 0 <==> forall email :: !IsLiked(likes, email)
  {
    if likes.Some? && |likes.value| > 0 then
      assert IsLiked(likes, likes.value[0]);
      |likes.value|
    else
      |OrEmpty(likes)|
  }

  /** The list sent to the store: every occurrence of `email` removed when it likes the
      post, one copy appended at the end otherwise (an absent list read as empty). */
  function NewLikes(likes: Option<seq<string>>, email: string): (r: seq<string>)
    ensures email in r <==> !IsLiked(likes, email)
    ensures !IsLiked(likes, email) ==> r == OrEmpty(likes) + [email]
    ensures forall other :: other != email ==> multiset(r)[other] == multiset(OrEmpty(likes))[other]
  {
    if IsLiked(likes, email) then RemoveAll(likes.value, email) else OrEmpty(likes) + [email]
  }

  /** A like request: the post id and its new likes list. */
  datatype LikeRequest = LikeRequest(postId: string, likes: seq<string>)

  /** The post card's `handleLike`: ignored while an earlier like is in flight
      (`isLiking`); otherwise one request for this post. */
  function CardClick(isLiking: bool, post: Post, email: string): (r: Option<LikeRequest>)
    ensures r.None? <==> isLiking
    ensures r.Some? ==> r.value.postId == post.id
    ensures r.Some? ==> (email in r.value.likes <==> !IsLiked(post.likes, email))
  {
    if isLiking then None else Some(LikeRequest(post.id, NewLikes(post.likes, email)))
  }

  /** The map's `handleLike`, which has no in-flight flag. */
  function MapClick(post: Post, email: string): (r: LikeRequest)
    ensures r.postId == post.id
    ensures email in r.likes <==> !IsLiked(post.likes, email)
  {
    LikeRequest(post.id, NewLikes(post.likes, email))
  }

  /** The two like buttons compute the same request whenever the card is idle, and the
      new list is the generic list toggle applied to the old list. */
  lemma {:induction false} ClicksAgree(post: Post, email: string)
    ensures CardClick(false, post, email) == Some(MapClick(post, email))
    ensures MapClick(post, email).likes == Toggle(OrEmpty(post.likes), email)
  {
    if IsLiked(post.likes, email) {
      assert email in OrEmpty(post.likes);
    } else {
      assert email !in OrEmpty(post.likes);
    }
  }

  /** Liking adds one to the count; unliking removes every copy of the email. */
  lemma LikeCountAfterToggle(likes: Option<seq<string>>, email: string)
    ensures !IsLiked(likes, email) ==> LikeCount(Some(NewLikes(likes, email))) == LikeCount(likes) + 1
    ensures IsLiked(likes, email) ==>
      LikeCount(Some(NewLikes(likes, email))) == LikeCount(likes) - multiset(likes.value)[email]
  {
    var r := NewLikes(likes, email);
    if IsLiked(likes, email) {
      var m: multiset<string> := multiset(likes.value);
      var mr: multiset<string> := multiset(r);
      assert mr[email] == 0;
      assert mr == m[email := 0];
      assert |m| == |m[email := 0]| + m[email];
    }
  }

  /** Liking and then unliking restores the original list (an absent list comes back
      as the empty list). */
  lemma {:induction false} LikeThenUnlike(likes: Option<seq<string>>, email: string)
    requires !IsLiked(likes, email)
    ensures NewLikes(Some(NewLikes(likes, email)), email) == OrEmpty(likes)
  {
    var s := OrEmpty(likes);
    assert email !in s;
    ToggleTwice(s, email);
  }
}

=== FILE: messageinput.dfy ===
/** The chat's text box: its own send guard, the Enter-key shortcut and the rules that
    grey out the text area and the send button. */
module MessageInput {
  import opened Optional
  import opened Text

  /** The text typed so far and whether a send is in flight. */
  datatype Input = Input(text: string, isSending: bool)

  const Empty: Input := Input("", false)

  /** `!message.trim() || isSending || slowmodeCooldown > 0`. */
  predicate Ignored(s: Input, cooldown: int)
  {
    Blank(s.text) || s.isSending || cooldown > 0
  }

  /** `handleSubmit` up to the `onSend` call: the new state and the text handed to
      `onSend`, if any. */
  function Submit(s: Input, cooldown: int): (r: (Input, Option<string>))
    ensures r.1.None? <==> (Blank(s.text) || s.isSending || cooldown > 0)
    ensures r.1.None? ==> r.0 == s
    ensures r.1.Some? ==> r.0 == Input(s.text, true)
    ensures r.1.Some? ==> r.1.value == Trim(s.text) && r.1.value != [] && !IsSpace(r.1.value[0])
  {
    if Ignored(s, cooldown) then (s, None) else (s.(isSending := true), Some(Trim(s.text)))
  }

  /** The rest of `handleSubmit`, once `onSend` has returned. */
  function Completed(s: Input): (r: Input)
    ensures r.text == [] && !r.isSending
  {
    Input("", false)
  }

  /** `handleKeyDown`: Enter without Shift submits; every other key leaves the state alone. */
  function KeyDown(s: Input, key: string, shift: bool, cooldown: int): (r: (Input, Option<string>))
    ensures key == "Enter" && !shift ==> r == Submit(s, cooldown)
    ensures !(key == "Enter" && !shift) ==> r == (s, None)
  {
    if key == "Enter" && !shift then Submit(s, cooldown) else (s, None)
  }

  /** `isDisabled`, which greys out the text area. */
  predicate InputDisabled(disabled: bool, s: Input, cooldown: int): (b: bool)
    ensures disabled || s.isSending ==> b
    ensures !disabled && !s.isSending ==> (b <==> cooldown > 0)
  {
    disabled || s.isSending || cooldown > 0
  }

  /** The send button's `disabled`: blank text, or the text area is disabled. */
  predicate ButtonDisabled(disabled: bool, s: Input, cooldown: int): (b: bool)
    ensures InputDisabled(disabled, s, cooldown) ==> b
    ensures !b ==> Trim(s.text) != []
  {
    Blank(s.text) || InputDisabled(disabled, s, cooldown)
  }

  /** When the parent does not disable the box, the button is disabled exactly when a
      submit would be ignored; a disabled parent disables the button whatever the text. */
  lemma ButtonMatchesSubmit(disabled: bool, s: Input, cooldown: int)
    ensures !disabled ==> (ButtonDisabled(disabled, s, cooldown) <==> Submit(s, cooldown).1.None?)
    ensures disabled ==> ButtonDisabled(disabled, s, cooldown) && InputDisabled(disabled, s, cooldown)
  {
  }

  /** Shift+Enter never sends; plain Enter sends the trimmed text when not ignored. */
  lemma EnterShortcut(s: Input, cooldown: int)
    ensures KeyDown(s, "Enter", true, cooldown).1.None?
    ensures !Ignored(s, cooldown) ==> KeyDown(s, "Enter", false, cooldown).1 == Some(Trim(s.text))
  {
  }

  /** A full send leaves the box empty and idle, so an immediate second submit is ignored
      and the trimmed text is sent once. */
  lemma SendOnce(s: Input, cooldown: int)
    requires !Ignored(s, cooldown)
    ensures Completed(Submit(s, cooldown).0) == Empty
    ensures Submit(Completed(Submit(s, cooldown).0), cooldown).1.None?
  {
  }

  /** While a send is in flight, every submit is ignored, whatever the text. */
  lemma InFlightIgnored(s: Input, cooldown: int)
    requires !Ignored(s, cooldown)
    ensures forall text :: Submit(Input(text, Submit(s, cooldown).0.isSending), cooldown).1.None?
  {
  }
}

=== FILE: onboarding.dfy ===
/** The onboarding page: choosing a username, then picking interests, then completing
    or skipping. */
module Onboarding {
  import opened Optional
  import opened Text
  import opened Entities
  import Friends

  const MinUsername: nat := 3
  const MaxUsername: nat := 20

  const TooShort: string := "Username must be at least 3 characters"
  const TooLong: string := "Username must be less than 20 characters"
  const BadCharacters: string := "Username can only contain letters, numbers, and underscores"

  /** The character class `[a-zA-Z0-9_]`. */
  predicate UsernameChar(c: char)
  {
    ('a' <= c <= 'z') || ('A' <= c <= 'Z') || ('0' <= c <= '9') || c == '_'
  }

  /** `/^[a-zA-Z0-9_]+$/.test(s)`. */
  predicate MatchesPattern(s: string)
  {
    |s| > 0 && forall k :: 0 <= k < |s| ==> UsernameChar(s[k])
  }

  /** `validateUsername`: the first failing rule's message, or "" when all pass. */
  function ValidateUsername(name: string): (msg: string)
    ensures msg == "" <==> MinUsername <= |name| <= MaxUsername && forall k :: 0 <= k < |name| ==> UsernameChar(name[k])
    ensures |name| < MinUsername ==> msg == TooShort
    ensures MinUsername <= |name| && MaxUsername < |name| ==> msg == TooLong
    ensures MinUsername <= |name| <= MaxUsername && !MatchesPattern(name) ==> msg == BadCharacters
    ensures msg in {"", TooShort, TooLong, BadCharacters}
  {
    if |name| < MinUsername then TooShort
    else if |name| > MaxUsername then TooLong
    else if !MatchesPattern(name) then BadCharacters
    else ""
  }

  /** Lower-casing keeps a valid username valid, so the stored name passes the same rules. */
  lemma LowerStaysValid(name: string)
    requires ValidateUsername(name) == ""
    ensures ValidateUsername(Lower(name)) == ""
  {
    var low := Lower(name);
    forall k | 0 <= k < |low|
      ensures UsernameChar(low[k])
    {
      assert low[k] == LowerChar(name[k]);
    }
  }

  /** `checkUsernameAvailability` negated: another account already has this name,
      ignoring case. */
  predicate Taken(me: User, users: seq<User>, name: string): (b: bool)
    ensures b <==> exists u :: u in users && u.email != me.email && u.username.Some? && Lower(u.username.value) == Lower(name)
  {
    exists k :: 0 <= k < |users| && users[k].username.Some?
      && Lower(users[k].username.value) == Lower(name) && users[k].email != me.email
  }

  /** Lower-casing a string twice is lower-casing it once. */
  lemma LowerIdempotent(s: string)
    ensures Lower(Lower(s)) == Lower(s)
  {
    assert forall k :: 0 <= k < |s| ==> LowerChar(LowerChar(s[k])) == LowerChar(s[k]);
  }

  /** Availability ignores case: a name and its lower-case form are taken together. */
  lemma TakenIgnoresCase(me: User, users: seq<User>, name: string)
    ensures Taken(me, users, name) <==> Taken(me, users, Lower(name))
  {
    LowerIdempotent(name);
  }

  /** What `handleUsernameSubmit` does. */
  datatype UsernameOutcome = Invalid(message: string) | AlreadyTaken | Saved(username: string)

  function SubmitUsername(me: User, users: seq<User>, name: string): (r: UsernameOutcome)
    ensures r.Invalid? <==> ValidateUsername(name) != ""
    ensures r.Invalid? ==> r.message == ValidateUsername(name)
    ensures r.AlreadyTaken? <==> ValidateUsername(name) == "" && Taken(me, users, name)
    ensures r.Saved? ==> r.username == Lower(name) && ValidateUsername(r.username) == ""
  {
    var msg := ValidateUsername(name);
    if msg != "" then Invalid(msg)
    else if Taken(me, users, name) then AlreadyTaken
    else
      LowerStaysValid(name);
      Saved(Lower(name))
  }

  /** A saved name is not in use by anyone else, in any letter case. */
  lemma SavedNameIsFree(me: User, users: seq<User>, name: string)
    requires SubmitUsername(me, users, name).Saved?
    ensures !Taken(me, users, SubmitUsername(me, users, name).username)
  {
    TakenIgnoresCase(me, users, name);
  }

  /** `handleComplete`: nothing with no interests chosen; otherwise the record is marked
      complete, keeps the chosen interests and starts with empty friendship lists. */
  function Complete(me: User, selected: seq<string>): (r: Option<User>)
    ensures r.None? <==> |selected| == 0
    ensures r.Some? ==> r.value.onboardingCompleted && r.value.interests == Some(selected)
    ensures r.Some? ==> r.value.friends == Some([]) && r.value.sentRequests == Some([]) && r.value.receivedRequests == Some([])
    ensures r.Some? ==> r.value.(interests := me.interests, onboardingCompleted := me.onboardingCompleted,
      friends := me.friends, sentRequests := me.sentRequests, receivedRequests := me.receivedRequests) == me
  {
    if |selected| == 0 then None
    else Some(me.(interests := Some(selected), onboardingCompleted := true,
                  friends := Some([]), sentRequests := Some([]), receivedRequests := Some([])))
  }

  /** `handleSkip`: the same record with no interests. */
  function Skip(me: User): (r: User)
    ensures r.onboardingCompleted && r.interests == Some([])
    ensures r.friends == Some([]) && r.sentRequests == Some([]) && r.receivedRequests == Some([])
    ensures r.(interests := me.interests, onboardingCompleted := me.onboardingCompleted,
      friends := me.friends, sentRequests := me.sentRequests, receivedRequests := me.receivedRequests) == me
  {
    me.(interests := Some([]), onboardingCompleted := true,
        friends := Some([]), sentRequests := Some([]), receivedRequests := Some([]))
  }

  /** Skipping is completing with an empty interest list, which completing itself refuses. */
  lemma SkipIsCompleteWithoutInterests(me: User, selected: seq<string>)
    requires |selected| > 0
    ensures Skip(me) == Complete(me, selected).value.(interests := Some([]))
  {
  }

  /** Completing or skipping onboarding clears every relationship: every other user
      shows the "Add Friend" control. */
  lemma FreshRelationships(me: User, selected: seq<string>, u: User)
    ensures Friends.BadgeFor(Skip(me), u) == Friends.AddFriend
    ensures |selected| > 0 ==> Friends.BadgeFor(Complete(me, selected).value, u) == Friends.AddFriend
  {
  }
}

=== FILE: optional.dfy ===
/** Absent-or-present values: JavaScript's `undefined`/`null` versus a value. */
module Optional {

  datatype Option<+T> = None | Some(value: T) {

    /** The value, or `default` when absent (the `x || default` and `x ?? default` idioms). */
    function GetOr(default: T): T
    {
      match this
      case Some(v) => v
      case None => default
    }
  }

  /** `list || []`: an absent list reads as the empty list. */
  function OrEmpty<T>(s: Option<seq<T>>): seq<T>
  {
    s.GetOr([])
  }
}

=== FILE: profile.dfy ===
/** The profile page: the edit form's defaults, the interest editor and how interests
    are displayed. */
module Profile {
  import opened Optional
  import opened Seqs
  import opened Text
  import opened Entities

  /** The edit form: name, bio and avatar URL as plain strings. */
  datatype EditForm = EditForm(fullName: string, bio: string, avatarUrl: string)

  /** `loadProfile`'s `setEditData`: each field from the user, "" when absent. */
  function FormFor(u: User): (f: EditForm)
    ensures u.fullName.None? ==> f.fullName == ""
    ensures u.bio.None? ==> f.bio == ""
    ensures u.avatarUrl.None? ==> f.avatarUrl == ""
    ensures u.fullName.Some? ==> f.fullName == u.fullName.value
    ensures u.bio.Some? ==> f.bio == u.bio.value
    ensures u.avatarUrl.Some? ==> f.avatarUrl == u.avatarUrl.value
  {
    EditForm(u.fullName.GetOr(""), u.bio.GetOr(""), u.avatarUrl.GetOr(""))
  }

  /** `handleSave`: the form's three fields written back onto the record. */
  function SaveForm(u: User, f: EditForm): (r: User)
    ensures r.fullName == Some(f.fullName) && r.bio == Some(f.bio) && r.avatarUrl == Some(f.avatarUrl)
    ensures r.(fullName := u.fullName, bio := u.bio, avatarUrl := u.avatarUrl) == u
  {
    u.(fullName := Some(f.fullName), bio := Some(f.bio), avatarUrl := Some(f.avatarUrl))
  }

  /** Saving a form and loading the profile again shows the same form. */
  lemma SaveThenLoad(u: User, f: EditForm)
    ensures FormFor(SaveForm(u, f)) == f
  {
  }

  /** Saving the form unedited changes only absent fields, which become "". */
  lemma SaveUnedited(u: User)
    ensures FormFor(SaveForm(u, FormFor(u))) == FormFor(u)
    ensures u.fullName.Some? && u.bio.Some? && u.avatarUrl.Some? ==> SaveForm(u, FormFor(u)) == u
  {
  }

  /** The interest editor starts from the user's list, or an empty one. */
  function InitialSelection(u: User): (s: seq<string>)
    ensures u.interests.Some? ==> s == u.interests.value
    ensures u.interests.None? ==> s == []
  {
    OrEmpty(u.interests)
  }

  /** `handleToggleInterest`: an absent id is appended at the end, a present one loses
      every occurrence, and the other ids keep their counts. */
  function ToggleInterest(selected: seq<string>, id: string): (r: seq<string>)
    ensures id in r <==> id !in selected
    ensures id !in selected ==> r == selected + [id]
    ensures id in selected ==> r == RemoveAll(selected, id)
    ensures forall other :: other != id ==> multiset(r)[other] == multiset(selected)[other]
  {
    Toggle(selected, id)
  }

  /** Toggling an absent id twice gives back the list unchanged. */
  lemma ToggleInterestTwice(selected: seq<string>, id: string)
    requires id !in selected
    ensures ToggleInterest(ToggleInterest(selected, id), id) == selected
  {
    ToggleTwice(selected, id);
  }

  /** `handleSaveInterests`: the edited list replaces the stored one, nothing else changes. */
  function SaveInterests(u: User, selected: seq<string>): (r: User)
    ensures r.interests == Some(selected)
    ensures r.(interests := u.interests) == u
  {
    u.(interests := Some(selected))
  }

  /** Saving the edited interests and reloading the profile gives the editor the same list. */
  lemma SaveInterestsThenLoad(u: User, selected: seq<string>)
    ensures InitialSelection(SaveInterests(u, selected)) == selected
  {
  }

  /** At most this many interests are shown on the profile. */
  const InterestsShown: nat := 5

  /** `interest.replace(/_/g, ' ')`. */
  function InterestLabel(id: string): (r: string)
    ensures |r| == |id|
    ensures '_' !in r
    ensures forall k :: 0 <= k < |id| && id[k] != '_' ==> r[k] == id[k]
    ensures forall k :: 0 <= k < |id| && id[k] == '_' ==> r[k] == ' '
  {
    UnderscoresToSpaces(id)
  }

  /** An id without underscores is shown as it is. */
  lemma InterestLabelPlain(id: string)
    requires '_' !in id
    ensures InterestLabel(id) == id
  {
    assert forall k :: 0 <= k < |id| ==> id[k] != '_';
  }

  /** The labels shown: the first five interests, in order, with underscores as spaces. */
  function ShownInterests(u: User): (r: seq<string>)
    ensures |r| <= InterestsShown
    ensures |r| == |Take(OrEmpty(u.interests), InterestsShown)|
    ensures forall k :: 0 <= k < |r| ==> r[k] == InterestLabel(u.interests.value[k])
  {
    Map(InterestLabel, Take(OrEmpty(u.interests), InterestsShown))
  }

  /** After saving at most five interests without underscores, the profile shows exactly
      those ids, in the saved order. */
  lemma ShownAfterSave(u: User, selected: seq<string>)
    requires |selected| <= InterestsShown
    requires forall k :: 0 <= k < |selected| ==> '_' !in selected[k]
    ensures ShownInterests(SaveInterests(u, selected)) == selected
  {
    var r := ShownInterests(SaveInterests(u, selected));
    forall k | 0 <= k < |r|
      ensures r[k] == selected[k]
    {
      InterestLabelPlain(selected[k]);
    }
  }
}

=== FILE: seqs.dfy ===
/** Sequence operations the client performs with JavaScript array methods
    (`filter`, `map`, `slice`, `reverse`, `sort`), stated once and reused. */
module Seqs {

  /** No element occurs twice. */
  predicate Distinct<T(==)>(s: seq<T>)
  {
    forall a, b :: 0 <= a < b < |s| ==> s[a] != s[b]
  }

  /** `s.filter(keep)`: the elements `keep` accepts, in their original order. */
  function Filter<T(!new)>(s: seq<T>, keep: T -> bool): (r: seq<T>)
    ensures |r| <= |s|
    ensures forall i :: 0 <= i < |r| ==> keep(r[i])
    ensures forall x :: multiset(r)[x] == if keep(x) then multiset(s)[x] else 0
  {
    if |s| == 0 then []
    else
      assert s == [s[0]] + s[1..];
      if keep(s[0]) then [s[0]] + Filter(s[1..], keep) else Filter(s[1..], keep)
  }

  /** Membership after filtering, both directions. */
  lemma FilterMembership<T(!new)>(s: seq<T>, keep: T -> bool, x: T)
    ensures x in Filter(s, keep) <==> x in s && keep(x)
  {
    assert x in Filter(s, keep) <==> multiset(Filter(s, keep))[x] > 0;
    assert x in s <==> multiset(s)[x] > 0;
  }

  /** Filtering distributes over concatenation. */
  lemma {:induction false} FilterAppend<T(!new)>(a: seq<T>, b: seq<T>, keep: T -> bool)
    ensures Filter(a + b, keep) == Filter(a, keep) + Filter(b, keep)
    decreases |a|
  {
    if |a| == 0 {
      assert a + b == b;
    } else {
      assert (a + b)[0] == a[0];
      assert (a + b)[1..] == a[1..] + b;
      FilterAppend(a[1..], b, keep);
    }
  }

  /** Filtering keeps every element when `keep` accepts all of them. */
  lemma {:induction false} FilterAll<T(!new)>(s: seq<T>, keep: T -> bool)
    requires forall i :: 0 <= i < |s| ==> keep(s[i])
    ensures Filter(s, keep) == s
    decreases |s|
  {
    if |s| > 0 {
      FilterAll(s[1..], keep);
    }
  }

  /** Two filters in a row are one filter by the conjunction. */
  lemma {:induction false} FilterFilter<T(!new)>(s: seq<T>, p: T -> bool, q: T -> bool)
    ensures Filter(Filter(s, p), q) == Filter(s, x => p(x) && q(x))
    decreases |s|
  {
    if |s| > 0 {
      FilterFilter(s[1..], p, q);
      if p(s[0]) {
        assert Filter(s, p) == [s[0]] + Filter(s[1..], p);
        assert Filter(s, p)[1..] == Filter(s[1..], p);
      }
    }
  }

  /** Sequences with equal multisets have equal filtered multisets. */
  lemma FilterPermutation<T(!new)>(a: seq<T>, b: seq<T>, keep: T -> bool)
    requires multiset(a) == multiset(b)
    ensures multiset(Filter(a, keep)) == multiset(Filter(b, keep))
  {
    assert forall x :: multiset(Filter(a, keep))[x] == multiset(Filter(b, keep))[x];
  }

  /** `s.filter(e => e !== x)`: every occurrence of `x` removed. */
  function RemoveAll<T(==,!new)>(s: seq<T>, x: T): (r: seq<T>)
    ensures x !in r
    ensures forall y :: y != x ==> multiset(r)[y] == multiset(s)[y]
  {
    var r := Filter(s, y => y != x);
    assert multiset(r)[x] == 0;
    r
  }

  /** Removal works piecewise: the survivors of a concatenation are the survivors of
      each part, in order. */
  lemma RemoveAllAppend<T(!new)>(a: seq<T>, b: seq<T>, x: T)
    ensures RemoveAll(a + b, x) == RemoveAll(a, x) + RemoveAll(b, x)
  {
    FilterAppend(a, b, y => y != x);
  }

  /** On one element, removal drops it exactly when it is the removed value. */
  lemma RemoveAllSingle<T(!new)>(y: T, x: T)
    ensures RemoveAll([y], x) == if y == x then [] else [y]
  {
    assert [y][1..] == [];
  }

  /** Removal keeps the survivors in their original order: `RemoveAll` is determined by
      the two lemmas above, element by element from the front. */
  lemma {:induction false} RemoveAllFront<T(!new)>(s: seq<T>, x: T)
    requires |s| > 0
    ensures RemoveAll(s, x) == (if s[0] == x then [] else [s[0]]) + RemoveAll(s[1..], x)
  {
    assert s == [s[0]] + s[1..];
    RemoveAllAppend([s[0]], s[1..], x);
    RemoveAllSingle(s[0], x);
  }

  /** Removing an absent element changes nothing. */
  lemma {:induction false} RemoveAllAbsent<T(!new)>(s: seq<T>, x: T)
    requires x !in s
    ensures RemoveAll(s, x) == s
  {
    FilterAll(s, y => y != x);
  }

  /** The list toggle used for interests: remove every occurrence when present,
      append once at the end when absent. */
  function Toggle<T(==,!new)>(s: seq<T>, x: T): (r: seq<T>)
    ensures x in r <==> x !in s
    ensures x !in s ==> r == s + [x]
    ensures x in s ==> r == RemoveAll(s, x)
    ensures forall y :: y != x ==> multiset(r)[y] == multiset(s)[y]
  {
    if x in s then RemoveAll(s, x) else s + [x]
  }

  /** Toggling an absent element twice restores the list exactly. */
  lemma {:induction false} ToggleTwice<T(!new)>(s: seq<T>, x: T)
    requires x !in s
    ensures Toggle(Toggle(s, x), x) == s
  {
    assert Toggle(s, x) == s + [x];
    FilterAppend(s, [x], y => y != x);
    RemoveAllAbsent(s, x);
    assert Filter([x], y => y != x) == [];
  }

  /** `s.slice(0, n)`: the first `n` elements, or all of them when there are fewer. */
  function Take<T>(s: seq<T>, n: nat): (r: seq<T>)
    ensures |r| == if |s| < n then |s| else n
    ensures r <= s
  {
    if |s| <= n then s else s[..n]
  }

  /** `s.map(f)`. */
  function Map<A, B>(f: A -> B, s: seq<A>): (r: seq<B>)
    ensures |r| == |s|
    ensures forall i :: 0 <= i < |s| ==> r[i] == f(s[i])
  {
    seq(|s|, i requires 0 <= i < |s| => f(s[i]))
  }

  /** `s.reverse()`. */
  function Reverse<T>(s: seq<T>): (r: seq<T>)
    ensures |r| == |s|
    ensures forall i :: 0 <= i < |s| ==> r[i] == s[|s| - 1 - i]
  {
    if |s| == 0 then [] else Reverse(s[1..]) + [s[0]]
  }

  /** Reversing keeps every element with its multiplicity. */
  lemma {:induction false} ReversePermutation<T>(s: seq<T>)
    ensures multiset(Reverse(s)) == multiset(s)
    decreases |s|
  {
    if |s| > 0 {
      ReversePermutation(s[1..]);
      assert s == [s[0]] + s[1..];
    }
  }

  /** Concatenation of a sequence of sequences. */
  function Flatten<T>(ss: seq<seq<T>>): seq<T>
  {
    if |ss| == 0 then [] else ss[0] + Flatten(ss[1..])
  }

  /** Membership in a flattening is membership in one of its parts. */
  lemma {:induction false} FlattenMembership<T>(ss: seq<seq<T>>, x: T)
    ensures x in Flatten(ss) <==> exists p :: 0 <= p < |ss| && x in ss[p]
    decreases |ss|
  {
    if |ss| > 0 {
      FlattenMembership(ss[1..], x);
      if x in Flatten(ss[1..]) {
        var p :| 0 <= p < |ss[1..]| && x in ss[1..][p];
        assert x in ss[p + 1];
      }
      if exists p :: 0 <= p < |ss| && x in ss[p] {
        var p :| 0 <= p < |ss| && x in ss[p];
        if p > 0 {
          assert x in ss[1..][p - 1];
        }
      }
    }
  }

  /** First occurrences only, in first-occurrence order: what the keys of a JavaScript
      object look like after assigning to `obj[x]` for every `x` of `s`. */
  function Dedup<T(==,!new)>(s: seq<T>): (r: seq<T>)
    ensures Distinct(r)
    ensures forall x :: x in r <==> x in s
    decreases |s|
  {
    if |s| == 0 then []
    else
      var d := Dedup(s[..|s| - 1]);
      assert s == s[..|s| - 1] + [s[|s| - 1]];
      if s[|s| - 1] in d then d else d + [s[|s| - 1]]
  }

  /** A list without duplicates is its own deduplication. */
  lemma {:induction false} DedupDistinct<T(!new)>(s: seq<T>)
    requires Distinct(s)
    ensures Dedup(s) == s
    decreases |s|
  {
    if |s| > 0 {
      DedupDistinct(s[..|s| - 1]);
      assert s == s[..|s| - 1] + [s[|s| - 1]];
    }
  }

  /** Non-increasing order by `key` (newest first when `key` is a timestamp). */
  predicate SortedDesc<T>(s: seq<T>, key: T -> int)
  {
    forall i, j :: 0 <= i < j < |s| ==> key(s[j]) <= key(s[i])
  }

  /** Non-decreasing order by `key` (oldest first when `key` is a timestamp). */
  predicate SortedAsc<T>(s: seq<T>, key: T -> int)
  {
    forall i, j :: 0 <= i < j < |s| ==> key(s[i]) <= key(s[j])
  }

  /** Inserts `x` before the first element whose key does not exceed its own. */
  function Insert<T>(x: T, s: seq<T>, key: T -> int): (r: seq<T>)
    requires SortedDesc(s, key)
    ensures SortedDesc(r, key)
    ensures multiset(r) == multiset(s) + multiset{x}
    ensures r[0] == x || (|s| > 0 && r[0] == s[0])
  {
    if |s| == 0 then [x]
    else if key(s[0]) <= key(x) then [x] + s
    else
      var rest := Insert(x, s[1..], key);
      assert s == [s[0]] + s[1..];
      assert key(rest[0]) <= key(s[0]);
      [s[0]] + rest
  }

  /** The comparator sort `(a, b) => key(b) - key(a)`: a stable sort, largest key first. */
  function SortDesc<T>(s: seq<T>, key: T -> int): (r: seq<T>)
    ensures SortedDesc(r, key)
    ensures multiset(r) == multiset(s)
  {
    if |s| == 0 then []
    else
      assert s == [s[0]] + s[1..];
      Insert(s[0], SortDesc(s[1..], key), key)
  }

  /** Sorting a list that is already newest-first leaves it exactly as it was. */
  lemma {:induction false} SortDescSorted<T>(s: seq<T>, key: T -> int)
    requires SortedDesc(s, key)
    ensures SortDesc(s, key) == s
    decreases |s|
  {
    if |s| > 0 {
      SortDescSorted(s[1..], key);
      assert s == [s[0]] + s[1..];
    }
  }

  /** Filtering keeps a newest-first list newest-first. */
  lemma {:induction false} FilterSortedDesc<T(!new)>(s: seq<T>, keep: T -> bool, key: T -> int)
    requires SortedDesc(s, key)
    ensures SortedDesc(Filter(s, keep), key)
    decreases |s|
  {
    if |s| > 0 {
      FilterSortedDesc(s[1..], keep, key);
      var rest := Filter(s[1..], keep);
      forall k | 0 <= k < |rest|
        ensures key(rest[k]) <= key(s[0])
      {
        assert multiset(rest)[rest[k]] > 0;
        assert rest[k] in s[1..];
      }
    }
  }

  /** Reversing a newest-first list makes it oldest-first. */
  lemma ReverseSortedDesc<T>(s: seq<T>, key: T -> int)
    requires SortedDesc(s, key)
    ensures SortedAsc(Reverse(s), key)
  {
    var r := Reverse(s);
    forall i, j | 0 <= i < j < |r|
      ensures key(r[i]) <= key(r[j])
    {
      assert r[i] == s[|s| - 1 - i] && r[j] == s[|s| - 1 - j];
    }
  }
}

=== FILE: summary.dfy ===
/** The summary page: nearby posts bucketed by the viewer's interests, and the input of
    one summary request per non-empty bucket. The summary text itself comes from a
    language model and is not part of this model. */
module Summary {
  import opened Optional
  import opened Seqs
  import opened Text
  import opened Geo
  import opened Entities
  import Interests

  /** The posts of one interest, in store order. */
  datatype Bucket = Bucket(category: string, posts: seq<Nearby<Post>>)

  /** What one summary request is built from: the category, its display label and the
      post texts. */
  datatype Request = Request(category: string, categoryLabel: string, text: string)

  /** At most this many posts feed one summary. */
  const PostsPerSummary: nat := 5

  /** At most this many posts are shown under each category. */
  const PostsShown: nat := 2

  /** `nearbyPosts.filter(post => post.category === interest)`. */
  function BucketFor(nearby: seq<Nearby<Post>>, category: string): (b: Bucket)
    ensures b.category == category
    ensures forall i :: 0 <= i < |b.posts| ==> b.posts[i].item.category == category && b.posts[i] in nearby
  {
    var keep := (n: Nearby<Post>) => n.item.category == category;
    var posts := Filter(nearby, keep);
    assert forall i :: 0 <= i < |posts| ==> posts[i] in nearby by {
      forall i | 0 <= i < |posts|
        ensures posts[i] in nearby
      {
        FilterMembership(nearby, keep, posts[i]);
      }
    }
    Bucket(category, posts)
  }

  /** `loadPosts`: nothing without a location and a user; otherwise one bucket per
      distinct interest of the user (an object keyed by interest, so a repeated interest
      yields one bucket, at its first position). */
  function LoadBuckets(location: Option<Coord>, user: Option<User>, stored: seq<Post>, dist: Distance): (r: Option<seq<Bucket>>)
    ensures r.Some? <==> location.Some? && user.Some?
    ensures r.Some? ==> forall c :: (exists i :: 0 <= i < |r.value| && r.value[i].category == c) <==> c in OrEmpty(user.value.interests)
    ensures r.Some? ==> forall i, j :: 0 <= i < j < |r.value| ==> r.value[i].category != r.value[j].category
    ensures r.Some? ==> forall i, k :: 0 <= i < |r.value| && 0 <= k < |r.value[i].posts| ==>
      r.value[i].posts[k].distance <= RadiusMiles && r.value[i].posts[k].item.category == r.value[i].category
  {
    if location.None? || user.None? then None
    else
      var nearby := Filter(Annotate(location.value, stored, PostAt, dist), InRadius);
      var interests := Dedup(OrEmpty(user.value.interests));
      var buckets := Map((c: string) => BucketFor(nearby, c), interests);
      assert forall i :: 0 <= i < |buckets| ==> buckets[i].category == interests[i];
      Some(buckets)
  }

  /** A bucket holds exactly the stored posts of its category within 5 miles, each with
      its own distance. */
  lemma BucketMembership(origin: Coord, user: User, stored: seq<Post>, dist: Distance, i: nat, n: Nearby<Post>)
    requires i < |LoadBuckets(Some(origin), Some(user), stored, dist).value|
    ensures var b := LoadBuckets(Some(origin), Some(user), stored, dist).value[i];
      n in b.posts <==>
        n.item in stored && n.distance == dist(origin, n.item.at) && n.distance <= RadiusMiles && n.item.category == b.category
  {
    var annotated := Annotate(origin, stored, PostAt, dist);
    var nearby := Filter(annotated, InRadius);
    var b := LoadBuckets(Some(origin), Some(user), stored, dist).value[i];
    assert b == BucketFor(nearby, b.category);
    FilterMembership(nearby, (m: Nearby<Post>) => m.item.category == b.category, n);
    FilterMembership(annotated, InRadius, n);
    AnnotateMembership(origin, stored, PostAt, dist, n);
  }

  /** Each bucket keeps the store's newest-first order. */
  lemma BucketNewestFirst(origin: Coord, user: User, stored: seq<Post>, dist: Distance, i: nat)
    requires forall a, b :: 0 <= a < b < |stored| ==> stored[b].createdDate <= stored[a].createdDate
    requires i < |LoadBuckets(Some(origin), Some(user), stored, dist).value|
    ensures SortedDesc(LoadBuckets(Some(origin), Some(user), stored, dist).value[i].posts, PostCreated)
  {
    var annotated := Annotate(origin, stored, PostAt, dist);
    var nearby := Filter(annotated, InRadius);
    var b := LoadBuckets(Some(origin), Some(user), stored, dist).value[i];
    assert b == BucketFor(nearby, b.category);
    assert SortedDesc(annotated, PostCreated);
    FilterSortedDesc(annotated, InRadius, PostCreated);
    FilterSortedDesc(nearby, (m: Nearby<Post>) => m.item.category == b.category, PostCreated);
  }

  function Content(n: Nearby<Post>): string { n.item.content }

  /** The request for one bucket: the contents of its first five posts joined by a blank
      line, and the category's label. */
  function RequestFor(b: Bucket): (r: Request)
    requires |b.posts| > 0
    ensures r.category == b.category
    ensures r.categoryLabel == Interests.Label(b.category)
    ensures b.posts[0].item.content <= r.text
    ensures |b.posts| == 1 ==> r.text == b.posts[0].item.content
    ensures |b.posts| >= 2 ==> b.posts[0].item.content + "\n\n" <= r.text
  {
    var parts := Map(Content, Take(b.posts, PostsPerSummary));
    assert |b.posts| >= 2 ==> Join(parts, "\n\n") == parts[0] + "\n\n" + Join(parts[1..], "\n\n");
    Request(b.category, Interests.Label(b.category), Join(parts, "\n\n"))
  }

  /** Below the limit, one more post adds a blank line and its content to the text. */
  lemma RequestExtend(b: Bucket, n: Nearby<Post>)
    requires 0 < |b.posts| < PostsPerSummary
    ensures RequestFor(b.(posts := b.posts + [n])).text == RequestFor(b).text + "\n\n" + n.item.content
  {
    var parts := Map(Content, Take(b.posts, PostsPerSummary));
    assert Map(Content, Take(b.posts + [n], PostsPerSummary)) == parts + [Content(n)];
    JoinSnoc(parts, "\n\n", Content(n));
  }

  /** Only the first five posts feed the request: later posts change nothing. */
  lemma RequestFirstFive(b: Bucket, later: seq<Nearby<Post>>)
    requires |b.posts| >= PostsPerSummary
    ensures RequestFor(b.(posts := b.posts + later)) == RequestFor(b)
  {
    assert Take(b.posts + later, PostsPerSummary) == Take(b.posts, PostsPerSummary);
  }

  predicate NonEmpty(b: Bucket) { |b.posts| > 0 }

  /** `generateSummaries` up to the model call: one request per non-empty bucket, in
      bucket order. */
  function Requests(buckets: seq<Bucket>): (r: seq<Request>)
    ensures |r| <= |buckets|
    decreases |buckets|
  {
    if |buckets| == 0 then []
    else if |buckets[0].posts| == 0 then Requests(buckets[1..])
    else [RequestFor(buckets[0])] + Requests(buckets[1..])
  }

  /** A request is made exactly for the non-empty buckets. */
  lemma {:induction false} RequestsExactly(buckets: seq<Bucket>, req: Request)
    ensures req in Requests(buckets) <==> exists b :: b in buckets && NonEmpty(b) && req == RequestFor(b)
    decreases |buckets|
  {
    if |buckets| > 0 {
      RequestsExactly(buckets[1..], req);
      if exists b :: b in buckets && NonEmpty(b) && req == RequestFor(b) {
        var b :| b in buckets && NonEmpty(b) && req == RequestFor(b);
        if b != buckets[0] {
          assert b in buckets[1..];
        }
      }
      if exists b :: b in buckets[1..] && NonEmpty(b) && req == RequestFor(b) {
        var b :| b in buckets[1..] && NonEmpty(b) && req == RequestFor(b);
        assert b in buckets;
      }
    }
  }

  /** The posts shown under one category. */
  function Shown(b: Bucket): (r: seq<Nearby<Post>>)
    ensures |r| <= PostsShown
    ensures r <= b.posts
    ensures |b.posts| >= PostsShown ==> |r| == PostsShown
    ensures |b.posts| <= PostsShown ==> r == b.posts
  {
    Take(b.posts, PostsShown)
  }

  /** Once two posts are shown, later posts do not change what is shown. */
  lemma ShownFirstTwo(b: Bucket, later: seq<Nearby<Post>>)
    requires |b.posts| >= PostsShown
    ensures Shown(b.(posts := b.posts + later)) == Shown(b)
  {
    assert (b.posts + later)[..PostsShown] == b.posts[..PostsShown];
  }
}

=== FILE: text.dfy ===
/** The JavaScript string operations the client relies on: `trim`, `toLowerCase`,
    `includes`, `join` and the `/_/g` replacement. Strings are sequences of characters. */
module Text {
  import Seqs

  /** ECMAScript WhiteSpace and LineTerminator characters, the set `String.prototype.trim` strips. */
  predicate IsSpace(c: char)
  {
    || c == ' ' || c == '\t' || c == '\n' || c == '\r'
    || c == '\U{000B}' || c == '\U{000C}' || c == '\U{00A0}' || c == '\U{1680}'
    || ('\U{2000}' <= c <= '\U{200A}')
    || c == '\U{2028}' || c == '\U{2029}' || c == '\U{202F}' || c == '\U{205F}'
    || c == '\U{3000}' || c == '\U{FEFF}'
  }

  /** Every character is whitespace (so the string trims to ""). */
  predicate Blank(s: string)
  {
    forall k :: 0 <= k < |s| ==> IsSpace(s[k])
  }

  /** Number of leading whitespace characters. */
  function LeadingSpace(s: string): (n: nat)
    ensures n <= |s|
    ensures forall k :: 0 <= k < n ==> IsSpace(s[k])
    ensures n < |s| ==> !IsSpace(s[n])
  {
    if |s| == 0 || !IsSpace(s[0]) then 0 else 1 + LeadingSpace(s[1..])
  }

  /** Index where the trailing whitespace run starts. */
  function TrailingSpace(s: string): (m: nat)
    ensures m <= |s|
    ensures forall k :: m <= k < |s| ==> IsSpace(s[k])
    ensures 0 < m ==> !IsSpace(s[m - 1])
  {
    if |s| == 0 || !IsSpace(s[|s| - 1]) then |s| else TrailingSpace(s[..|s| - 1])
  }

  /** `s.trim()`: the slice of `s` left after cutting whitespace from both ends. */
  function Trim(s: string): (r: string)
    ensures r == [] <==> Blank(s)
    ensures r != [] ==> !IsSpace(r[0]) && !IsSpace(r[|r| - 1])
    ensures exists i, j :: 0 <= i <= j <= |s| && r == s[i..j] && Blank(s[..i]) && Blank(s[j..])
  {
    var i := LeadingSpace(s);
    var t := s[i..];
    var j := TrailingSpace(t);
    assert s[i..i + j] == t[..j];
    assert Blank(s[..i]);
    assert Blank(s[i + j..]) by {
      assert forall k :: i + j <= k < |s| ==> s[k] == t[k - i];
    }
    assert t[..j] == [] ==> Blank(s) by {
      if t[..j] == [] {
        assert i == |s|;
        assert s[..i] == s;
      }
    }
    t[..j]
  }

  /** Trimming twice is trimming once. */
  lemma TrimIdempotent(s: string)
    ensures Trim(Trim(s)) == Trim(s)
  {
    var r := Trim(s);
    if r != [] {
      assert LeadingSpace(r) == 0;
      assert TrailingSpace(r) == |r|;
    }
  }

  /** ASCII upper-case letters to lower case; every other character unchanged. */
  function LowerChar(c: char): (d: char)
    ensures 'A' <= c <= 'Z' ==> 'a' <= d <= 'z' && d as int - c as int == 32
    ensures !('A' <= c <= 'Z') ==> d == c
  {
    if 'A' <= c <= 'Z' then (c as int + 32) as char else c
  }

  /** `s.toLowerCase()`, on the ASCII letters. */
  function Lower(s: string): (r: string)
    ensures |r| == |s|
    ensures forall k :: 0 <= k < |s| ==> r[k] == LowerChar(s[k])
  {
    Seqs.Map(LowerChar, s)
  }

  /** `hay.includes(needle)`: `needle` occurs as a contiguous piece of `hay`. */
  predicate Contains(hay: string, needle: string)
    decreases |hay|
  {
    needle <= hay || (|hay| > 0 && Contains(hay[1..], needle))
  }

  /** `parts.join(sep)`. */
  function Join(parts: seq<string>, sep: string): (r: string)
    ensures |parts| == 1 ==> r == parts[0]
    ensures |parts| > 0 ==> parts[0] <= r
  {
    if |parts| == 0 then ""
    else if |parts| == 1 then parts[0]
    else parts[0] + sep + Join(parts[1..], sep)
  }

  /** Joining one more part appends the separator and that part. */
  lemma {:induction false} JoinSnoc(parts: seq<string>, sep: string, p: string)
    requires |parts| > 0
    ensures Join(parts + [p], sep) == Join(parts, sep) + sep + p
    decreases |parts|
  {
    if |parts| == 1 {
      assert parts + [p] == [parts[0], p];
      assert (parts + [p])[1..] == [p];
    } else {
      assert (parts + [p])[0] == parts[0];
      assert (parts + [p])[1..] == parts[1..] + [p];
      JoinSnoc(parts[1..], sep, p);
    }
  }

  /** `s.replace(/_/g, ' ')`. */
  function UnderscoresToSpaces(s: string): (r: string)
    ensures |r| == |s|
    ensures forall k :: 0 <= k < |s| ==> r[k] == if s[k] == '_' then ' ' else s[k]
  {
    Seqs.Map((c: char) => if c == '_' then ' ' else c, s)
  }
}
